=== FILE: README.md ===
# Session-guarded settings service, in Dafny

This project models the core of a small web application. It has an Express
server with cookie-based sessions, and a React client with a settings page.
All behaviour is stated as pure functions over immutable values, and the
properties the code promises are proved about them.

**Server**
- **Session store** (`SessionStore`): a map from session id to session record.
- **Auth guard** (`AuthGuard`): runs in front of every API route. It reads the
  session cookie, looks up the session, and checks the idle timeout. An
  expired session is deleted. A live one is refreshed.
- **Login and logout** (`AuthRoutes`): login checks credentials against the
  configured users, creates a session and sets the cookie. Logout deletes the
  session.
- **Configuration service** (`ConfigService`): holds the session timeout and
  the user list. It loads them from data files and writes the timeout back.
- **API routes** (`ApiRoutes`): `GET /info`, `GET /options` and
  `POST /options`, all behind the guard.

**Validation**
- **Shared schemas** (`SharedSchemas`): the rules both sides share.
- **Server schemas** (`ServerSchemas`): the server's own copy of those rules.
  It is proved to accept and produce exactly what the shared copy does.

**Client**
- **Settings page** (`SettingsPage`): the timeout field and its
  `parseInt`-based check, the theme toggle, and the message shown when an
  update settles.
- **Theme hook** (`UseTheme`): restores and saves the theme. It applies the
  light or dark class to the page and follows the system colour scheme.
- **Auth provider** (`AuthProvider`): the logged-in user, persisted in local
  storage.

**Supporting modules**
- `Decimal` models `Number.parseInt(s, 10)` and `Number#toString`.
- `Json` models parsed JSON values.
- `Optional` is the option type.

**Cookie names.** The guard reads and clears a cookie literally named `sid`.
Login sets, and logout reads and clears, the shared cookie name `session_id`.
The model keeps both names as the code has them.
`ApiRoutes.LoginCookieNotAccepted` proves the consequence:
- a browser that logged in, and holds no `sid` cookie, is refused with 401
  "Unauthorized" on every API route;
- its session stays in the store untouched.

The repository's integration test expects `GET /info` to answer 200 with the
login cookie (server/src/integration.test.ts:65-75). The code as written does
not give that answer.

**Environment as inputs.** Clock readings, fresh session ids, login time text,
file contents, the outcome of the file write, `NODE_ENV`, the colour-scheme
media query and local storage contents are all parameters.

## Model

| member | source | states |
|---|---|---|
| SessionStore.CreateSession | server/src/services/session.service.ts:29-38 | a fresh id is added with the given user, login time and `lastActive = now`; every other session is kept and the store grows by exactly one |
| SessionStore.GetSession | server/src/services/session.service.ts:45-52 | a record is returned exactly when the id is live, and it is that id's record |
| SessionStore.UpdateActivity | server/src/services/session.service.ts:58-63 | only the named session's `lastActive` changes, to `now`; an unknown id leaves the store as it was |
| SessionStore.DeleteSession | server/src/services/session.service.ts:69-71 | the id is gone and every other session is kept unchanged; deleting an unknown id changes nothing |
| SessionStore.CreateThenGet | server/src/services/session.service.ts:29-52 | a session created under an id is found under it at once, with the data it was created with |
| SessionStore.GetAfterDelete | server/src/services/session.service.ts:45-71 | after deleting an id, looking it up finds nothing |
| SessionStore.DeleteIdempotent | server/src/services/session.service.ts:69-71 | deleting twice is the same as deleting once |
| SessionStore.UpdateActivityMonotone | server/src/services/session.service.ts:58-63 | with a clock that has not gone back, a refresh never lowers `lastActive` and keeps username, full name and login time |
| SessionStore.RunKeepsActivityFloor | server/src/services/session.service.ts:29-71 | over any run of creates, refreshes and deletes under a forward clock, surviving sessions keep or raise `lastActive`, and new ones start no earlier than the run |
| SessionStore.LastActiveNeverDecreases | server/src/services/session.service.ts:29-71 | a session's `lastActive` never decreases over any sequence of store operations under a forward clock |
| AuthGuard.PresentedSid | server/src/middleware/auth.middleware.ts:23-27 | the guard works with the `sid` cookie exactly when it is present and non-empty |
| AuthGuard.Guard | server/src/middleware/auth.middleware.ts:22-51 | exactly one of four outcomes, each with its iff condition: no cookie, unknown session, expired (strictly more than the timeout since last activity, session deleted and `sid` cleared), or proceed with the session refreshed to `now` and attached |
| AuthGuard.Rejected | server/src/middleware/auth.middleware.ts:24-43 | every outcome but proceed is a 401: "Unauthorized" without a cookie, "Invalid session" for an unknown session, "Session timed out" after expiry |
| AuthGuard.RejectionTextsDistinct | server/src/middleware/auth.middleware.ts:24-43 | the three rejections are told apart by their error text alone |
| AuthGuard.TimeoutBoundary | server/src/middleware/auth.middleware.ts:35-43 | an idle time exactly equal to the timeout still proceeds; one millisecond more times out |
| AuthGuard.GuardFrame | server/src/middleware/auth.middleware.ts:22-51 | the guard never adds a session and never touches any session but the one its cookie names |
| AuthGuard.ExpiredNeverRefreshed | server/src/middleware/auth.middleware.ts:38-45 | an expired session is never refreshed: the request stops and the session is gone |
| AuthGuard.TimedOutIsTerminal | server/src/middleware/auth.middleware.ts:29-43 | after a timeout, the same cookie is an invalid session at any later time, under any timeout |
| AuthGuard.ProceedExtendsSession | server/src/middleware/auth.middleware.ts:35-50 | a request that proceeds restarts the idle timer: a second request within the timeout also proceeds |
| AuthGuard.GuardKeepsClockBound | server/src/middleware/auth.middleware.ts:35-45 | if no session was active after `now` before the guard, none is after it |
| AuthGuard.DefaultTimeoutScenario | server/src/middleware/auth.middleware.ts:35-43 | with the 60-minute timeout, a request 3 600 001 ms after login times out and one at 3 600 000 ms proceeds |
| AuthRoutes.FindUser | server/src/routes/auth.routes.ts:13 | the index found is the first user whose username and password both match; none is found only when no user matches |
| AuthRoutes.Flags | server/src/routes/auth.routes.ts:17-22 | the cookie is always httpOnly; it is secure and strict exactly in production, lax otherwise |
| AuthRoutes.Login | server/src/routes/auth.routes.ts:8-35 | a malformed body is 400 "Bad request", unknown credentials 401 "Invalid credentials", both with the store unchanged; success returns the user's profile, sets `session_id` to the fresh id and adds exactly that session |
| AuthRoutes.Logout | server/src/routes/auth.routes.ts:37-44 | the session the `session_id` cookie names is deleted when the cookie is non-empty; the cookie is cleared and the answer is "ok" in every case |
| AuthRoutes.LoginSucceedsIff | server/src/routes/auth.routes.ts:8-35 | login succeeds exactly when the body parses and some configured user has that username and password |
| AuthRoutes.LoginUsesFirstMatch | server/src/routes/auth.routes.ts:14-16 | the new session belongs to the first matching user and is the only session added; a failed login leaves the store alone and sets no cookie |
| AuthRoutes.LogoutIdempotent | server/src/routes/auth.routes.ts:37-44 | logging out again, with or without the cleared cookie, changes nothing further |
| AuthRoutes.LogoutRemovesOnlyNamedSession | server/src/routes/auth.routes.ts:38-41 | logout removes the named session and keeps every other session as it was |
| ConfigService.LoadConfig | server/src/services/config.service.ts:24-35 | success means both files parsed and validated, and the state holds what they said; a bad options file changes nothing; a bad users file fails after the new options are already in place |
| ConfigService.UpdateOptions | server/src/services/config.service.ts:49-56 | invalid options are refused with nothing changed and nothing written; valid ones are stored and written, and a failed write still leaves them stored |
| ConfigService.GetOptions | server/src/services/config.service.ts:41-43 | the current options, which in a valid state pass the options schema unchanged |
| ConfigService.GetUsers | server/src/services/config.service.ts:62-64 | the configured users, which written out as a users file pass the users schema unchanged |
| ConfigService.UsersFileParses | server/src/services/config.service.ts:24-35 | a users file written from any user list parses under the server's users schema back to that list |
| ConfigService.LoadedUsersReadBack | server/src/services/config.service.ts:24-64 | a users file holding a list of users loads without error, and `getUsers` then returns that list in order |
| ConfigService.InitialState | server/src/services/config.service.ts:9 | the service starts with a 60-minute timeout, which is within the valid range |
| ConfigService.UpdateThenGet | server/src/services/config.service.ts:41-56 | after an accepted update, reading the options gives exactly the new ones and the users are unchanged |
| ConfigService.WrittenOptionsReload | server/src/services/config.service.ts:24-56 | what an update writes to the options file is what a later load reads back |
| ConfigService.UsersFailureKeepsNewOptions | server/src/services/config.service.ts:24-35 | when the users file fails, the load fails, yet the options read before it have replaced the old ones |
| ConfigService.OperationsKeepValid | server/src/services/config.service.ts:24-56 | load and update, failed or not, keep the timeout within 1..1440 |
| ConfigService.ReachableStatesValid | server/src/services/config.service.ts:24-56 | after any sequence of loads and updates, failed or not, the timeout is within 1..1440 |
| ApiRoutes.BodyJson | server/src/routes/api.routes.ts:13-49 | an error answer is an object whose `error` member is the error text; an options answer is the options object itself |
| ApiRoutes.InfoHandler | server/src/routes/api.routes.ts:13-35 | without a session the answer is 401 "No session"; with one, it is 200 with that session's username, full name and login time |
| ApiRoutes.PostOptionsHandler | server/src/routes/api.routes.ts:41-49 | a body failing the options schema is 400 with the configuration unchanged; a valid body is stored, and echoed with 200 if the write succeeds, else answered 400 |
| ApiRoutes.HandleApi | server/src/routes/api.routes.ts:11-49 | the guard runs first, under the configured timeout; its store and cleared cookie are the result's; a rejection answers with the guard's 401 and leaves the configuration alone; a passing request gets the route's own answer: `/info` for the attached session, `GET /options` the current options with the configuration unchanged, `POST /options` exactly what the options handler gives for the body, so a non-numeric or out-of-range body is 400 "Bad request" with the configuration unchanged |
| ApiRoutes.EveryRouteGuarded | server/src/routes/api.routes.ts:11 | when the guard rejects, every route gives the same 401 answer and state |
| ApiRoutes.InfoShowsSession | server/src/routes/api.routes.ts:13-35 | behind a passing guard, `GET /info` reports the cookie's session's username, full name and login time |
| ApiRoutes.NoSessionUnreachable | server/src/routes/api.routes.ts:16-19 | through the router, the handler's "No session" answer never occurs |
| ApiRoutes.GetOptionsReturnsConfig | server/src/routes/api.routes.ts:37-39 | `GET /options` returns the current options and changes nothing |
| ApiRoutes.PostValidOptions | server/src/routes/api.routes.ts:41-49 | a valid timeout is stored and echoed with 200, and a later `GET /options` returns it |
| ApiRoutes.PostInvalidOptions | server/src/routes/api.routes.ts:41-49 | an out-of-range timeout is 400 "Bad request" and leaves the configuration unchanged |
| ApiRoutes.PostNonNumericOptions | server/src/routes/api.routes.ts:41-49 | a body without a numeric timeout, such as `{}` or the timeout as a string, is 400 "Bad request" with the configuration unchanged |
| ApiRoutes.PostOptionsWriteFailure | server/src/routes/api.routes.ts:41-49 | when the write fails the answer is 400, yet the new timeout is already stored |
| ApiRoutes.NewTimeoutAppliesImmediately | server/src/routes/api.routes.ts:41-49 | after an update, the very next request times out exactly when its idle time exceeds the new timeout |
| ApiRoutes.LoginCookieNotAccepted | server/src/middleware/auth.middleware.ts:22-27 | a browser holding only the cookie login set is refused 401 "Unauthorized" on every route, and its session is left in the store |
| SharedSchemas.ParseUser | shared/src/schemas.ts:3-7 | a user parses exactly when username, password and full name are all strings, and the result holds those strings |
| SharedSchemas.ParseOptions | shared/src/schemas.ts:9-11 | options parse exactly when `sessionTimeoutMinutes` is a number within 1..1440 |
| SharedSchemas.ParseLogin | shared/src/schemas.ts:13-16 | a login parses exactly when username and password are strings, and the result holds them |
| SharedSchemas.ParseUsers | shared/src/schemas.ts:3-7 | a user list parses exactly when it is an array whose every element parses, item by item in order |
| SharedSchemas.ParseUserList | shared/src/schemas.ts:3-7 | the list parses to one user per item, in order, and fails exactly when some item fails |
| SharedSchemas.ParseInfoUser | shared/src/schemas.ts:24-28 | an info user parses exactly when username, full name and login time are strings and the login time is a date-time; the result holds those strings |
| SharedSchemas.ParseServerInfo | shared/src/schemas.ts:18-30 | server info parses exactly when both timestamps are date-time strings, both versions are strings, and `user` is present and null or a valid info user; every field is the object's own member, and the user is absent exactly for null |
| SharedSchemas.ParseServerEnv | shared/src/schemas.ts:55-61 | `PORT` defaults to "3000" and `NODE_ENV` to development; any other `NODE_ENV` than the three names is rejected |
| SharedSchemas.OptionsAcceptExactlyRange | shared/src/schemas.ts:9-11 | the bounds are inclusive: 1 and 1440 pass, 0 and 1441 fail |
| SharedSchemas.OptionsRoundTrip | shared/src/schemas.ts:9-11 | valid options serialise and parse back to themselves |
| SharedSchemas.OptionsParseIdempotent | shared/src/schemas.ts:9-11 | re-parsing parsed options gives the same result |
| SharedSchemas.UserRoundTrip | shared/src/schemas.ts:3-7 | a user round-trips through JSON, and keys it does not declare are dropped |
| SharedSchemas.UserMissingFieldRejected | shared/src/schemas.ts:3-7 | a user object missing any field is rejected |
| SharedSchemas.LoginRoundTrip | shared/src/schemas.ts:13-16 | a login round-trips; a body without a string username is rejected |
| SharedSchemas.UsersRoundTrip | shared/src/schemas.ts:3-7 | any list of users serialises and parses back to the same list |
| SharedSchemas.ServerInfoAllowsNullUser | shared/src/schemas.ts:18-30 | a server info with `user: null` is accepted |
| SharedSchemas.ServerInfoAcceptsFullUser | shared/src/schemas.ts:18-30 | a server info whose `user` is a full user object is accepted, with that user |
| SharedSchemas.ServerEnvNamesRoundTrip | shared/src/schemas.ts:55-61 | each of the three `NODE_ENV` names is accepted as itself, and `PORT` is kept as given |
| SharedSchemas.ServerEnvDefaults | shared/src/schemas.ts:55-61 | an empty environment gives port 3000 in development mode |
| ServerSchemas.ParseOptions | server/src/shared/schemas.ts:10-12 | the server copy only accepts timeouts within 1..1440, taken from the body's own member |
| ServerSchemas.OptionsAgree | server/src/shared/schemas.ts:10-12 | the server's options rule gives the same result as the shared one on every input |
| ServerSchemas.UserAgrees | server/src/shared/schemas.ts:4-8 | the two user rules agree on every input |
| ServerSchemas.LoginAgrees | server/src/shared/schemas.ts:14-17 | the two login rules agree on every input |
| ServerSchemas.UserListAgrees | server/src/shared/schemas.ts:4-8 | the two user-list rules agree on every list |
| ServerSchemas.UsersAgree | server/src/shared/schemas.ts:4-8 | the two user-array rules agree on every input |
| ServerSchemas.ServerInfoAgrees | server/src/shared/schemas.ts:19-29 | the two server-info rules agree on every input |
| Decimal.NatToString | client/src/pages/settings-page.tsx:65 | the printed number is a non-empty run of digits, with no leading zero, whose value is the number |
| Decimal.IntToString | client/src/pages/settings-page.tsx:65 | a number prints as the digits of its value, a negative one with a leading '-' and the digits of its magnitude |
| Decimal.ParseInt | client/src/pages/settings-page.tsx:82 | the empty text is NaN; text starting with a digit reads as the value of its leading digits, whatever follows |
| Decimal.TrimStart | client/src/pages/settings-page.tsx:82 | what `parseInt` skips is exactly the leading white space |
| Decimal.LeadingDigits | client/src/pages/settings-page.tsx:82 | `parseInt` reads the longest run of digits at the front |
| Decimal.ParseIntOfToString | client/src/pages/settings-page.tsx:65 | `parseInt` reads back a printed number, whatever non-digit text follows it |
| Decimal.ParseIntOfPlus | client/src/pages/settings-page.tsx:82 | a leading '+' is accepted: "+" then a number's digits and a non-digit tail read as the number |
| Decimal.ParseIntSkipsWhiteSpace | client/src/pages/settings-page.tsx:82 | leading white space does not change what `parseInt` reads |
| Decimal.ParseIntNeedsADigit | client/src/pages/settings-page.tsx:82-83 | text without a digit, the empty field included, reads as NaN |
| SettingsPage.ReadOptionsResponse | client/src/pages/settings-page.tsx:22-41 | a response resolves exactly when its status is 2xx and its body passes the options schema; a non-2xx status throws the request's failure text |
| SettingsPage.Sync | client/src/pages/settings-page.tsx:62-67 | a fetched object not yet synced becomes the synced one, and the field then reads back as its timeout |
| SettingsPage.Edit | client/src/pages/settings-page.tsx:162-164 | typing changes only the field's text |
| SettingsPage.HandleSubmit | client/src/pages/settings-page.tsx:80-88 | the form sends exactly when `parseInt` of the field is a number in 1..1440, and sends that number; otherwise it shows the range message |
| SettingsPage.Submit | client/src/pages/settings-page.tsx:80-88 | a refusal shows the range message and sends nothing; otherwise the screen is kept and the options are sent |
| SettingsPage.ErrorText | client/src/pages/settings-page.tsx:75-77 | the error message is the Error's own message, or "Update failed" for anything else thrown |
| SettingsPage.CacheOptions | client/src/pages/settings-page.tsx:50-72 | the cache then holds the received options; options equal to the cached ones keep the cached object, different ones become a new object; the field and the synced object are untouched |
| SettingsPage.Settle | client/src/pages/settings-page.tsx:69-78 | success puts the returned options in the cache, keeping the cached object when they are equal, and shows the success text; failure shows the error text and keeps the cache |
| SettingsPage.HandleThemeChange | client/src/pages/settings-page.tsx:90-94 | a null choice is ignored; any other choice becomes the theme |
| SettingsPage.EmptyInputRefused | client/src/pages/settings-page.tsx:83-86 | an empty field is refused with the range message and nothing is sent |
| SettingsPage.SubmitPrintedNumber | client/src/pages/settings-page.tsx:82-87 | a printed number is sent exactly when it lies in 1..1440, and it is sent as itself |
| SettingsPage.SubmittedOptionsPassSchema | client/src/pages/settings-page.tsx:87 | whatever is sent passes the options schema unchanged |
| SettingsPage.SubmitReadsLeadingNumber | client/src/pages/settings-page.tsx:82 | leading white space and trailing non-digits are ignored: " 30 min" sends 30 |
| SettingsPage.SyncIdempotent | client/src/pages/settings-page.tsx:62-67 | rendering again with the same fetched object changes nothing |
| SettingsPage.EditSurvivesRerender | client/src/pages/settings-page.tsx:62-67 | the user's typing survives later renders of the same fetched object |
| SettingsPage.OnlyChangedOptionsResetInput | client/src/pages/settings-page.tsx:64-67 | after a render, unsaved typing is replaced by the received timeout exactly when the received options differ from the synced ones |
| SettingsPage.SubmitAfterSync | client/src/pages/settings-page.tsx:64-87 | submitting the synced field unchanged sends the fetched options back |
| SettingsPage.SavedValueShown | client/src/pages/settings-page.tsx:69-74 | after a successful save the success text shows and the field still reads as the saved timeout, so submitting again sends the same options; the text is reprinted only when the options changed |
| SettingsPage.FetchedOptionsResubmit | client/src/pages/settings-page.tsx:22-29 | after a fetch of changed options the field sends them back unchanged; a fetch of the synced options leaves the field as it was |
| SettingsPage.SubmitThroughServer | client/src/pages/settings-page.tsx:31-41 | a valid submit behind a passing guard stores the options on the server; the page shows success, or "Failed to update options" when the file write failed |
| SettingsPage.RefusedRequestShowsFailure | client/src/pages/settings-page.tsx:38 | a request the guard refuses shows "Failed to update options" and leaves the server options alone |
| SettingsPage.ThemeChangeConsistent | client/src/pages/settings-page.tsx:90-94 | the theme toggle keeps the page consistent with the selection, and a null choice changes nothing |
| UseTheme.DecodeSaved | client/src/hooks/use-theme.ts:9-18 | a saved "light" or "dark" is restored as is; anything else, or nothing, gives system |
| UseTheme.Effective | client/src/hooks/use-theme.ts:26 | the shown theme is never system; it is the selection, or for system, dark exactly when the media query prefers dark |
| UseTheme.ShowClass | client/src/hooks/use-theme.ts:22-28 | exactly the shown theme's class is on the root, and other classes are kept |
| UseTheme.RunEffect | client/src/hooks/use-theme.ts:20-48 | the effect shows the effective theme's class, saves the selection's name, keeps other storage, and adds a listener exactly for system |
| UseTheme.Cleanup | client/src/hooks/use-theme.ts:43-45 | the cleanup touches only the listener count: the system theme's cleanup removes one registered listener, and any other theme's cleanup changes nothing |
| UseTheme.CleanupUndoesEffectListener | client/src/hooks/use-theme.ts:32-46 | the cleanup takes back exactly the listener its own effect added |
| UseTheme.Mount | client/src/hooks/use-theme.ts:9-18 | the first render selects what the saved value decodes to |
| UseTheme.SetTheme | client/src/hooks/use-theme.ts:20-48 | a selection becomes the theme |
| UseTheme.SchemeChanged | client/src/hooks/use-theme.ts:34-41 | a scheme change only touches the root element's classes, never the storage or listeners |
| UseTheme.PersistRoundTrip | client/src/hooks/use-theme.ts:10-29 | the saved name decodes back to the selection |
| UseTheme.UnknownSavedIsSystem | client/src/hooks/use-theme.ts:17 | any other saved text falls back to system |
| UseTheme.EffectShowsOneTheme | client/src/hooks/use-theme.ts:22-32 | after the effect exactly one of "light"/"dark" is on the root, the saved value decodes to the selection, and only system adds a listener |
| UseTheme.SchemeChangeMatchesEffect | client/src/hooks/use-theme.ts:32-41 | under system, the listener's update equals re-running the effect under the new scheme |
| UseTheme.MountConsistent | client/src/hooks/use-theme.ts:9-48 | the first render leaves the page consistent with the selection |
| UseTheme.StepConsistent | client/src/hooks/use-theme.ts:20-48 | a selection or scheme change keeps the page consistent |
| UseTheme.ReplayConsistent | client/src/hooks/use-theme.ts:20-48 | after any selections and scheme changes: one right theme class, the selection saved, a listener exactly under system and never more than one |
| AuthProvider.UserStateJson | client/src/contexts/auth-provider.tsx:35 | the stored form of a user is null exactly for no user, else an object with the user's username and full name |
| AuthProvider.InitialUser | client/src/contexts/auth-provider.tsx:19-30 | the initial user is null when nothing, empty text or non-JSON is stored, else the parsed value |
| AuthProvider.Mount | client/src/contexts/auth-provider.tsx:19-31 | the first render keeps storage as it is, and the user in memory is what storage decodes to |
| AuthProvider.IsAuthenticated | client/src/contexts/auth-provider.tsx:44 | logged in exactly when the user is not null (a `!==` test, so `false` and `0` count); while memory agrees with storage, exactly when storage holds a non-null JSON value |
| AuthProvider.Login | client/src/contexts/auth-provider.tsx:33-36 | login sets the user and stores its JSON, keeping the query cache |
| AuthProvider.Logout | client/src/contexts/auth-provider.tsx:38-42 | logout clears the user, the stored entry and the query cache |
| AuthProvider.InitialUserNullCases | client/src/contexts/auth-provider.tsx:19-30 | missing, empty, invalid and "null" stored values all start logged out |
| AuthProvider.AnyStoredValueAuthenticates | client/src/contexts/auth-provider.tsx:23-44 | any stored JSON value but null, even `false`, starts logged in, unchecked |
| AuthProvider.LoginSurvivesReload | client/src/contexts/auth-provider.tsx:19-36 | a reload after login restores the same user; logged in exactly for a non-null user |
| AuthProvider.LogoutSurvivesReload | client/src/contexts/auth-provider.tsx:38-44 | after logout neither the provider nor a reload is logged in |
| AuthProvider.StepRestoresAgreement | client/src/contexts/auth-provider.tsx:33-42 | every login or logout, from any state, leaves the user in memory equal to what a reload would decode |
| AuthProvider.ReplayKeepsAgreement | client/src/contexts/auth-provider.tsx:33-42 | logins and logouts keep the user in memory equal to what a reload would decode |
| AuthProvider.ReplayAgreesWithStorage | client/src/contexts/auth-provider.tsx:19-42 | from the first render on, a reload always restores exactly the user in memory |

## Left out

- Express and Node plumbing are not modelled: routing, cookie parsing, JSON body parsing, CORS, and the app and server start-up in `app.ts` and `index.ts`. Each handler is a function from the request's parsed parts to the response.
- There is no session cleanup scheduler. The source has none; expired sessions are removed only when the guard meets them.
- File I/O is not modelled. The contents of `options.json` and `users.json` enter as a `FileContent` (unreadable, not JSON, or parsed), and the write's success is a flag. The log line on a failed load is left out.
- Clocks, `randomUUID()` and `toISOString()` are parameters. A fresh id is any id not already in the store.
- AuthGuard.Guard: uses one clock reading per request, where the source reads the clock twice (expiry check and refresh). The two readings differ by the handler's own running time.
- ApiRoutes.InfoHandler: models only the `user` part of the `/info` answer. The start time, server time, Node version and Express version come from the process and are left out.
- SharedSchemas.ParseServerInfo: zod's ISO date-time check is the `isDateTime` parameter and is not spelled out.
- SharedSchemas.ParseOptions: JSON numbers are integers here. Fractional timeouts, which `z.number()` also accepts, are outside the model.
- SharedSchemas.ParseServerEnv: keeps `PORT` as text. `PortNumber` reads digit-only text, and `Number(...)` on other text (signs, spaces, fractions, NaN) is left out.
- `ClientEnvSchema`, `ApiErrorSchema` and `HealthResponseSchema` are left out. They validate a URL and the shape of responses the model builds directly.
- Decimal.IntToString: prints plain digits for every integer. JavaScript prints magnitudes of 10^21 and more in exponent form ("1e+21"), which `parseInt` would read back as 1; the page only prints timeouts within 1..1440, so this never arises, but Decimal.ParseIntOfToString and SettingsPage.SubmitPrintedNumber describe the plain-digit printing for such magnitudes.
- Concurrency is not modelled. Every handler and service call runs to completion as one step. The source awaits between setting the options in memory and writing the file (`updateOptions`, `loadConfig`), so two overlapping `POST /options` requests could leave the file with one request's options and memory with the other's; such interleavings are out of scope.
- Decimal.ParseInt: reads exact integers. JavaScript numbers lose precision beyond 2^53, which a 1..1440 check never reaches.
- AuthProvider.UserStateJson: serialisation is an abstract encode/decode pair. Stored text is classified by what `JSON.parse` makes of it, and `JSON.stringify` text is not spelled out.
- React rendering, loading and error screens, MUI components and the query library's fetching, retrying and caching policies are left out. The `['options']` cache entry is a single value, and object identity is a tag. The library's structural sharing is modelled for the whole options object: equal options keep the cached object.
- UseTheme.SchemeChanged: the listener's effect is modelled, but the media query object itself is not; its answer is a parameter.
- The API client wrapper (`api-client.ts`), the login and about pages, the error boundary and the layout are outside this model.

=== FILE: api_routes.dfy ===
/** The API router (server/src/routes/api.routes.ts): every route runs behind
    the guard, which reads the timeout from the configuration service at
    request time. Server start time, server clock text, Node and Express
    versions in `/info` are left out; the model keeps the `user` part. The
    outcome of the options file write is a parameter. */
module ApiRoutes {
  import opened Optional
  import opened Json
  import Shared = SharedSchemas
  import ServerSchemas
  import opened SessionStore
  import opened AuthGuard
  import Config = ConfigService
  import AuthRoutes

  datatype Route = GetInfo | GetOptions | PostOptions(body: Json)

  datatype ApiBody =
    | ErrorBody(error: string)
    | InfoBody(user: Shared.InfoUser)
    | OptionsBody(options: Shared.Options)

  datatype ApiResponse = ApiResponse(status: int, body: ApiBody)

  /** The JSON text of each answer body, as `res.json` sends it. */
  function BodyJson(b: ApiBody): (r: Json)
    ensures b.ErrorBody? ==> StringMember(r, "error") == Some(b.error)
    ensures b.OptionsBody? ==> r == Shared.OptionsJson(b.options)
  {
    match b
    case ErrorBody(e) => JObject(map["error" := JString(e)])
    case InfoBody(u) =>
      JObject(map["user" := JObject(map["username" := JString(u.username), "fullName" := JString(u.fullName),
                                        "loginTimestamp" := JString(u.loginTimestamp)])])
    case OptionsBody(o) => Shared.OptionsJson(o)
  }

  /** The answer, and the session store, configuration and cleared cookie after it. */
  datatype ApiResult = ApiResult(response: ApiResponse, sessions: Store, config: Config.ConfigState, clearedCookie: Option<string>)

  /** GET /info on its own: the user part of the attached session, or 401
      when no session is attached. */
  function InfoHandler(attached: Option<Session>): (r: ApiResponse)
    ensures attached.None? ==> r == ApiResponse(401, ErrorBody("No session"))
    ensures attached.Some? ==> r.status == 200 && r.body.InfoBody?
    ensures attached.Some? ==>
      && r.body.user.username == attached.value.username
      && r.body.user.fullName == attached.value.fullName
      && r.body.user.loginTimestamp == attached.value.loginTimestamp
  {
    match attached
    case None => ApiResponse(401, ErrorBody("No session"))
    case Some(s) => ApiResponse(200, InfoBody(Shared.InfoUser(s.username, s.fullName, s.loginTimestamp)))
  }

  /** POST /options on its own: parse, hand to the configuration service,
      echo the parsed options; any thrown error becomes 400. */
  function PostOptionsHandler(config: Config.ConfigState, body: Json, writeOk: bool): (r: (ApiResponse, Config.ConfigState))
    ensures ServerSchemas.ParseOptions(body).None? ==> r == (ApiResponse(400, ErrorBody("Bad request")), config)
    ensures ServerSchemas.ParseOptions(body).Some? ==>
      && r.1 == config.(options := ServerSchemas.ParseOptions(body).value)
      && r.0 == (if writeOk then ApiResponse(200, OptionsBody(ServerSchemas.ParseOptions(body).value))
                 else ApiResponse(400, ErrorBody("Bad request")))
  {
    match ServerSchemas.ParseOptions(body)
    case None => (ApiResponse(400, ErrorBody("Bad request")), config)
    case Some(o) =>
      var u := Config.UpdateOptions(config, o, writeOk);
      if u.failure.Some? then (ApiResponse(400, ErrorBody("Bad request")), u.state)
      else (ApiResponse(200, OptionsBody(o)), u.state)
  }

  /** The guard's view of a request under the current configuration. */
  function GuardOf(jar: CookieJar, sessions: Store, config: Config.ConfigState, now: int): GuardResult {
    Guard(jar, sessions, Config.GetOptions(config).sessionTimeoutMinutes, now)
  }

  /** One request to the router: the guard first, then the route's handler. */
  function HandleApi(route: Route, jar: CookieJar, sessions: Store, config: Config.ConfigState, now: int, writeOk: bool): (r: ApiResult)
    ensures
      var g := GuardOf(jar, sessions, config, now);
      && r.sessions == g.store
      && r.clearedCookie == g.clearedCookie
      && (!g.outcome.Proceed? ==> r.response == ApiResponse(401, ErrorBody(Rejected(g.outcome).value.error)) && r.config == config)
      && (g.outcome.Proceed? && route.GetInfo? ==> r.response == InfoHandler(Some(g.outcome.session)) && r.config == config)
      && (g.outcome.Proceed? && route.GetOptions? ==>
            r.response == ApiResponse(200, OptionsBody(Config.GetOptions(config))) && r.config == config)
      && (g.outcome.Proceed? && route.PostOptions? ==> (r.response, r.config) == PostOptionsHandler(config, route.body, writeOk))
  {
    var g := GuardOf(jar, sessions, config, now);
    match g.outcome
    case Proceed(session, _) =>
      (match route
       case GetInfo => ApiResult(InfoHandler(Some(session)), g.store, config, g.clearedCookie)
       case GetOptions => ApiResult(ApiResponse(200, OptionsBody(Config.GetOptions(config))), g.store, config, g.clearedCookie)
       case PostOptions(body) =>
         var (response, next) := PostOptionsHandler(config, body, writeOk);
         ApiResult(response, g.store, next, g.clearedCookie))
    case _ => ApiResult(ApiResponse(401, ErrorBody(Rejected(g.outcome).value.error)), g.store, config, g.clearedCookie)
  }

  // ---- Properties ----

  /** Every route sits behind the guard: when the guard rejects, every route
      gives the same 401 answer, and the configuration is untouched. */
  lemma EveryRouteGuarded(route: Route, other: Route, jar: CookieJar, sessions: Store, config: Config.ConfigState, now: int, writeOk: bool)
    requires !GuardOf(jar, sessions, config, now).outcome.Proceed?
    ensures HandleApi(route, jar, sessions, config, now, writeOk) == HandleApi(other, jar, sessions, config, now, writeOk)
    ensures HandleApi(route, jar, sessions, config, now, writeOk).response.status == 401
    ensures HandleApi(route, jar, sessions, config, now, writeOk).config == config
  {
  }

  /** GET /info behind a passing guard returns the session's own username,
      full name and login time. */
  lemma InfoShowsSession(jar: CookieJar, sessions: Store, config: Config.ConfigState, now: int, writeOk: bool)
    requires GuardOf(jar, sessions, config, now).outcome.Proceed?
    ensures
      var s := sessions[jar[GuardCookie]];
      HandleApi(GetInfo, jar, sessions, config, now, writeOk).response
        == ApiResponse(200, InfoBody(Shared.InfoUser(s.username, s.fullName, s.loginTimestamp)))
  {
  }

  /** Through the router the handler's "No session" answer never occurs:
      the guard always attaches a session before the handler runs. */
  lemma NoSessionUnreachable(jar: CookieJar, sessions: Store, config: Config.ConfigState, now: int, writeOk: bool)
    ensures HandleApi(GetInfo, jar, sessions, config, now, writeOk).response.body != ErrorBody("No session")
  {
  }

  /** GET /options returns the current options unchanged. */
  lemma GetOptionsReturnsConfig(jar: CookieJar, sessions: Store, config: Config.ConfigState, now: int, writeOk: bool)
    requires GuardOf(jar, sessions, config, now).outcome.Proceed?
    ensures HandleApi(GetOptions, jar, sessions, config, now, writeOk).response == ApiResponse(200, OptionsBody(config.options))
    ensures HandleApi(GetOptions, jar, sessions, config, now, writeOk).config == config
  {
  }

  /** POST /options with a valid timeout stores it and echoes it; a later
      GET /options returns it. */
  lemma PostValidOptions(jar: CookieJar, sessions: Store, config: Config.ConfigState, now: int, n: int, later: int)
    requires GuardOf(jar, sessions, config, now).outcome.Proceed?
    requires Shared.ValidTimeout(n)
    ensures
      var r := HandleApi(PostOptions(Shared.OptionsJson(Shared.Options(n))), jar, sessions, config, now, true);
      && r.response == ApiResponse(200, OptionsBody(Shared.Options(n)))
      && Config.GetOptions(r.config) == Shared.Options(n)
      && (GuardOf(jar, r.sessions, r.config, later).outcome.Proceed? ==>
            HandleApi(GetOptions, jar, r.sessions, r.config, later, true).response == ApiResponse(200, OptionsBody(Shared.Options(n))))
  {
  }

  /** POST /options with an out-of-range timeout (such as -1) is a 400 and
      leaves the configuration unchanged. */
  lemma PostInvalidOptions(jar: CookieJar, sessions: Store, config: Config.ConfigState, now: int, n: int, writeOk: bool)
    requires GuardOf(jar, sessions, config, now).outcome.Proceed?
    requires !Shared.ValidTimeout(n)
    ensures
      var r := HandleApi(PostOptions(Shared.OptionsJson(Shared.Options(n))), jar, sessions, config, now, writeOk);
      r.response == ApiResponse(400, ErrorBody("Bad request")) && r.config == config
  {
  }

  /** POST /options with a body that has no numeric timeout (`{}`, or the
      timeout as a string) is a 400 and leaves the configuration unchanged. */
  lemma PostNonNumericOptions(jar: CookieJar, sessions: Store, config: Config.ConfigState, now: int, body: Json, writeOk: bool)
    requires GuardOf(jar, sessions, config, now).outcome.Proceed?
    requires NumberMember(body, "sessionTimeoutMinutes").None?
    ensures
      var r := HandleApi(PostOptions(body), jar, sessions, config, now, writeOk);
      r.response == ApiResponse(400, ErrorBody("Bad request")) && r.config == config
  {
    ServerSchemas.OptionsAgree(body);
  }

  /** When the options file cannot be written, POST /options answers 400, yet
      the new timeout is already in force. */
  lemma PostOptionsWriteFailure(jar: CookieJar, sessions: Store, config: Config.ConfigState, now: int, n: int)
    requires GuardOf(jar, sessions, config, now).outcome.Proceed?
    requires Shared.ValidTimeout(n)
    ensures
      var r := HandleApi(PostOptions(Shared.OptionsJson(Shared.Options(n))), jar, sessions, config, now, false);
      r.response == ApiResponse(400, ErrorBody("Bad request")) && r.config.options == Shared.Options(n)
  {
  }

  /** A new timeout applies to the very next request: lowering it can time out
      a session that the old timeout would have let through. */
  lemma NewTimeoutAppliesImmediately(jar: CookieJar, sessions: Store, config: Config.ConfigState, now: int, n: int, later: int)
    requires GuardOf(jar, sessions, config, now).outcome.Proceed?
    requires Shared.ValidTimeout(n)
    ensures
      var r := HandleApi(PostOptions(Shared.OptionsJson(Shared.Options(n))), jar, sessions, config, now, true);
      GuardOf(jar, r.sessions, r.config, later).outcome.TimedOut? <==> later - now > TimeoutMs(n)
  {
  }

  /** The cookie a browser holds after a response that sets one. */
  function Receive(jar: CookieJar, cookie: Option<AuthRoutes.SetCookie>): (r: CookieJar)
    ensures cookie.Some? ==> cookie.value.name in r && r[cookie.value.name] == cookie.value.value
    ensures forall k | k in jar && (cookie.None? || k != cookie.value.name) :: k in r && r[k] == jar[k]
  {
    match cookie
    case None => jar
    case Some(c) => jar[c.name := c.value]
  }

  /** The login cookie ("session_id") is not the cookie the guard reads
      ("sid"): a browser that logged in successfully and holds no "sid"
      cookie is refused with 401 "Unauthorized" on every API route, and the
      session it was given is left in the store untouched. */
  lemma LoginCookieNotAccepted(body: Json, users: seq<Shared.User>, sessions: Store, freshSid: string,
                               loginAt: int, ts: string, nodeEnv: Option<string>,
                               jar: CookieJar, route: Route, config: Config.ConfigState, now: int, writeOk: bool)
    requires freshSid !in sessions
    requires GuardCookie !in jar
    requires AuthRoutes.Login(body, users, sessions, freshSid, loginAt, ts, nodeEnv).response.status == 200
    ensures
      var login := AuthRoutes.Login(body, users, sessions, freshSid, loginAt, ts, nodeEnv);
      var r := HandleApi(route, Receive(jar, login.response.cookie), login.store, config, now, writeOk);
      && r.response == ApiResponse(401, ErrorBody("Unauthorized"))
      && r.sessions == login.store
      && freshSid in r.sessions
  {
    assert Shared.CookieName != GuardCookie;
  }
}

=== FILE: auth_guard.dfy ===
/** The request gate in front of every API route
    (server/src/middleware/auth.middleware.ts), as a pure decision over the
    request's cookies, the session store, the configured timeout and the
    clock. It yields one of four outcomes, the store afterwards, and the name
    of the cookie the response clears, if any.

    The guard reads and clears a cookie literally named "sid", while login and
    logout use the shared cookie name "session_id"; the model keeps both names
    as the source has them. */
module AuthGuard {
  import opened Optional
  import opened SessionStore

  /** Cookies of a request, by name. */
  type CookieJar = map<string, string>

  /** The cookie name the guard reads and clears. */
  const GuardCookie := "sid"

  datatype Outcome =
    | Unauthorized                         // no usable cookie
    | InvalidSession                       // cookie names no live session
    | TimedOut                             // session expired; now deleted
    | Proceed(session: Session, sid: string) // session attached, `next()` called

  datatype GuardResult = GuardResult(outcome: Outcome, store: Store, clearedCookie: Option<string>)

  /** `sessionTimeoutMinutes * 60 * 1000`. */
  function TimeoutMs(minutes: int): int {
    minutes * 60 * 1000
  }

  /** Expired means strictly more than the timeout has passed since the last activity. */
  predicate Expired(s: Session, minutes: int, now: int) {
    now - s.lastActive > TimeoutMs(minutes)
  }

  /** The id the guard works with: the "sid" cookie, unless missing or empty. */
  function PresentedSid(jar: CookieJar): (r: Option<string>)
    ensures r.Some? <==> GuardCookie in jar && jar[GuardCookie] != ""
    ensures r.Some? ==> r.value == jar[GuardCookie]
  {
    if GuardCookie in jar && jar[GuardCookie] != "" then Some(jar[GuardCookie]) else None
  }

  /** `authGuard`: cookie, then lookup, then expiry, then refresh. The
      attached session is the record the refresh updated, so it already
      carries `lastActive == now`. */
  function Guard(jar: CookieJar, store: Store, timeoutMinutes: int, now: int): (r: GuardResult)
    ensures r.outcome.Unauthorized? <==> PresentedSid(jar).None?
    ensures r.outcome.InvalidSession? <==> PresentedSid(jar).Some? && PresentedSid(jar).value !in store
    ensures r.outcome.TimedOut? <==>
      PresentedSid(jar).Some? && PresentedSid(jar).value in store && Expired(store[PresentedSid(jar).value], timeoutMinutes, now)
    ensures r.outcome.Proceed? <==>
      PresentedSid(jar).Some? && PresentedSid(jar).value in store && !Expired(store[PresentedSid(jar).value], timeoutMinutes, now)
    ensures r.outcome.Unauthorized? || r.outcome.InvalidSession? ==> r.store == store && r.clearedCookie == None
    ensures r.outcome.TimedOut? ==>
      r.store == DeleteSession(store, jar[GuardCookie]) && r.clearedCookie == Some(GuardCookie)
    ensures r.outcome.Proceed? ==>
      && r.outcome.sid == jar[GuardCookie]
      && r.store == UpdateActivity(store, r.outcome.sid, now)
      && r.outcome.session == store[r.outcome.sid].(lastActive := now)
      && r.clearedCookie == None
  {
    match PresentedSid(jar)
    case None => GuardResult(Unauthorized, store, None)
    case Some(sid) =>
      match GetSession(store, sid)
      case None => GuardResult(InvalidSession, store, None)
      case Some(session) =>
        if now - session.lastActive > TimeoutMs(timeoutMinutes) then
          GuardResult(TimedOut, DeleteSession(store, sid), Some(GuardCookie))
        else
          var refreshed := UpdateActivity(store, sid, now);
          GuardResult(Proceed(refreshed[sid], sid), refreshed, None)
  }

  /** The 401 answer for each rejection; none when the request goes on. */
  datatype Rejection = Rejection(status: int, error: string)

  function Rejected(o: Outcome): (r: Option<Rejection>)
    ensures r.None? <==> o.Proceed?
    ensures r.Some? ==> r.value.status == 401
    ensures o.Unauthorized? ==> r == Some(Rejection(401, "Unauthorized"))
    ensures o.InvalidSession? ==> r == Some(Rejection(401, "Invalid session"))
    ensures o.TimedOut? ==> r == Some(Rejection(401, "Session timed out"))
  {
    match o
    case Unauthorized => Some(Rejection(401, "Unauthorized"))
    case InvalidSession => Some(Rejection(401, "Invalid session"))
    case TimedOut => Some(Rejection(401, "Session timed out"))
    case Proceed(_, _) => None
  }

  // ---- Properties ----

  /** The three rejections are told apart by their text alone. */
  lemma RejectionTextsDistinct(a: Outcome, b: Outcome)
    requires !a.Proceed? && !b.Proceed?
    requires Rejected(a).value.error == Rejected(b).value.error
    ensures a == b
  {
  }

  /** Elapsed time exactly equal to the timeout still proceeds; one
      millisecond more times out. */
  lemma TimeoutBoundary(jar: CookieJar, store: Store, minutes: int, now: int)
    requires PresentedSid(jar).Some? && jar[GuardCookie] in store
    ensures now - store[jar[GuardCookie]].lastActive == TimeoutMs(minutes) ==> Guard(jar, store, minutes, now).outcome.Proceed?
    ensures now - store[jar[GuardCookie]].lastActive == TimeoutMs(minutes) + 1 ==> Guard(jar, store, minutes, now).outcome == TimedOut
  {
  }

  /** The guard never adds a session and never touches a session other than
      the one the cookie names. */
  lemma GuardFrame(jar: CookieJar, store: Store, minutes: int, now: int)
    ensures Guard(jar, store, minutes, now).store.Keys <= store.Keys
    ensures forall k | k in store && (PresentedSid(jar).None? || k != PresentedSid(jar).value) ::
      k in Guard(jar, store, minutes, now).store && Guard(jar, store, minutes, now).store[k] == store[k]
  {
  }

  /** A session is never refreshed past its own timeout: when the named
      session has expired, the request does not proceed and the session is gone. */
  lemma ExpiredNeverRefreshed(jar: CookieJar, store: Store, minutes: int, now: int)
    requires PresentedSid(jar).Some? && jar[GuardCookie] in store
    requires Expired(store[jar[GuardCookie]], minutes, now)
    ensures !Guard(jar, store, minutes, now).outcome.Proceed?
    ensures jar[GuardCookie] !in Guard(jar, store, minutes, now).store
  {
  }

  /** A timed-out session stays dead: the same cookie presented again, at any
      time and under any timeout, is an invalid session. */
  lemma TimedOutIsTerminal(jar: CookieJar, store: Store, minutes: int, now: int, minutes': int, later: int)
    requires Guard(jar, store, minutes, now).outcome == TimedOut
    ensures Guard(jar, Guard(jar, store, minutes, now).store, minutes', later).outcome == InvalidSession
  {
  }

  /** Each successful request restarts the timeout: a second request within
      the timeout of the first one proceeds. */
  lemma ProceedExtendsSession(jar: CookieJar, store: Store, minutes: int, now: int, later: int)
    requires Guard(jar, store, minutes, now).outcome.Proceed?
    requires later - now <= TimeoutMs(minutes)
    ensures Guard(jar, Guard(jar, store, minutes, now).store, minutes, later).outcome.Proceed?
  {
  }

  /** The guard keeps the store consistent with a clock that does not go back. */
  lemma GuardKeepsClockBound(jar: CookieJar, store: Store, minutes: int, now: int)
    requires ClockBound(store, now)
    ensures ClockBound(Guard(jar, store, minutes, now).store, now)
  {
  }

  /** With the default 60-minute timeout, a request 3 600 001 ms after login
      times out, one at 3 600 000 ms proceeds. */
  lemma DefaultTimeoutScenario(store: Store, sid: string, username: string, fullName: string, ts: string, t0: int)
    requires sid !in store && sid != ""
    ensures
      var s := CreateSession(store, sid, username, fullName, ts, t0);
      && Guard(map[GuardCookie := sid], s, 60, t0 + 3600001).outcome == TimedOut
      && Guard(map[GuardCookie := sid], s, 60, t0 + 3600000).outcome.Proceed?
  {
  }
}

=== FILE: auth_provider.dfy ===
/** The client's authentication state (client/src/contexts/auth-provider.tsx):
    the current user, kept in local storage under "auth_user" so that it
    survives a reload, plus the query cache that logout clears.

    The stored text is described by what `JSON.parse` makes of it: empty,
    not JSON at all, or the text of a JSON value. `JSON.stringify` of a value
    is text of the last kind that parses back to the same value. The parsed
    value is cast to the user type without any check, so the user is kept
    as a JSON value. */
module AuthProvider {
  import opened Optional
  import opened Json

  const StorageKey := "auth_user"

  datatype UserData = UserData(username: string, fullName: string)

  /** Local storage text, by what `JSON.parse` does with it. */
  datatype StoredText = EmptyText | NotJson | JsonText(value: Json)

  /** The provider's state: the user (null when logged out), the stored
      "auth_user" entry, and the keys of the cached queries. */
  datatype Provider = Provider(user: Json, saved: Option<StoredText>, cachedQueries: set<string>)

  /** A user state as a JSON value: null, or an object with both fields. */
  function UserStateJson(u: Option<UserData>): (r: Json)
    ensures r == JNull <==> u.None?
    ensures u.Some? ==> StringMember(r, "username") == Some(u.value.username)
    ensures u.Some? ==> StringMember(r, "fullName") == Some(u.value.fullName)
  {
    match u
    case None => JNull
    case Some(d) => JObject(map["username" := JString(d.username), "fullName" := JString(d.fullName)])
  }

  /** The initial user: the parsed stored value, or null when nothing is
      stored, the text is empty, or it does not parse. */
  function InitialUser(saved: Option<StoredText>): (r: Json)
    ensures saved.None? || saved == Some(EmptyText) || saved == Some(NotJson) ==> r == JNull
    ensures saved.Some? && saved.value.JsonText? ==> r == saved.value.value
  {
    match saved
    case None => JNull
    case Some(EmptyText) => JNull
    case Some(NotJson) => JNull
    case Some(JsonText(v)) => v
  }

  /** The first render: the user comes from storage, which is left as is. */
  function Mount(saved: Option<StoredText>, cachedQueries: set<string>): (r: Provider)
    ensures r.saved == saved && r.cachedQueries == cachedQueries
    ensures AgreesWithStorage(r)
  {
    Provider(InitialUser(saved), saved, cachedQueries)
  }

  /** `isAuthenticated`: the user is not null. It is a `!==` test, not a
      truthiness test, so `false`, `0` and `""` count as logged in. While
      memory agrees with storage, it holds exactly when storage holds the
      text of a non-null JSON value. */
  function IsAuthenticated(p: Provider): (r: bool)
    ensures r <==> !p.user.JNull?
    ensures AgreesWithStorage(p) ==>
      (r <==> p.saved.Some? && p.saved.value.JsonText? && p.saved.value.value != JNull)
  {
    p.user != JNull
  }

  /** `login`: set the user and store its JSON text. */
  function Login(p: Provider, u: Option<UserData>): (r: Provider)
    ensures r.user == UserStateJson(u)
    ensures r.saved == Some(JsonText(UserStateJson(u)))
    ensures r.cachedQueries == p.cachedQueries
  {
    Provider(UserStateJson(u), Some(JsonText(UserStateJson(u))), p.cachedQueries)
  }

  /** `logout`: no user, no stored entry, an empty query cache. */
  function Logout(p: Provider): (r: Provider)
    ensures r.user == JNull && r.saved == None && r.cachedQueries == {}
  {
    Provider(JNull, None, {})
  }

  // ---- Properties ----

  /** Nothing stored, an empty text, text that is not JSON, and "null" all
      start logged out. */
  lemma InitialUserNullCases()
    ensures !IsAuthenticated(Mount(None, {}))
    ensures !IsAuthenticated(Mount(Some(EmptyText), {}))
    ensures !IsAuthenticated(Mount(Some(NotJson), {}))
    ensures !IsAuthenticated(Mount(Some(JsonText(JNull)), {}))
  {
  }

  /** The stored value is not checked: any stored JSON value other than null,
      even `false` or `0`, starts logged in. */
  lemma AnyStoredValueAuthenticates(v: Json, queries: set<string>)
    requires v != JNull
    ensures IsAuthenticated(Mount(Some(JsonText(v)), queries))
    ensures Mount(Some(JsonText(v)), queries).user == v
  {
  }

  /** After `login(u)`, a reload restores the same user, and the user counts
      as logged in exactly when `u` is not null. */
  lemma LoginSurvivesReload(p: Provider, u: Option<UserData>, queries: set<string>)
    ensures Mount(Login(p, u).saved, queries).user == Login(p, u).user
    ensures IsAuthenticated(Login(p, u)) <==> u.Some?
    ensures u.Some? ==> StringMember(Mount(Login(p, u).saved, queries).user, "username") == Some(u.value.username)
  {
  }

  /** After `logout()`, neither the provider nor a reload is logged in. */
  lemma LogoutSurvivesReload(p: Provider, queries: set<string>)
    ensures !IsAuthenticated(Logout(p))
    ensures !IsAuthenticated(Mount(Logout(p).saved, queries))
  {
  }

  datatype Action = DoLogin(u: Option<UserData>) | DoLogout

  function Step(p: Provider, a: Action): Provider {
    match a
    case DoLogin(u) => Login(p, u)
    case DoLogout => Logout(p)
  }

  function Replay(p: Provider, actions: seq<Action>): Provider
    decreases |actions|
  {
    if |actions| == 0 then p else Replay(Step(p, actions[0]), actions[1..])
  }

  /** The user in memory is what a reload would decode from storage. */
  predicate AgreesWithStorage(p: Provider) {
    p.user == InitialUser(p.saved)
  }

  /** Each login or logout leaves memory and storage in agreement, whatever
      state it starts from. */
  lemma StepRestoresAgreement(p: Provider, a: Action)
    ensures AgreesWithStorage(Step(p, a))
  {
  }

  /** From the first render on, through any logins and logouts, a reload
      would restore exactly the user in memory. */
  lemma ReplayAgreesWithStorage(saved: Option<StoredText>, queries: set<string>, actions: seq<Action>)
    ensures AgreesWithStorage(Replay(Mount(saved, queries), actions))
  {
    ReplayKeepsAgreement(Mount(saved, queries), actions);
  }

  lemma {:induction false} ReplayKeepsAgreement(p: Provider, actions: seq<Action>)
    requires AgreesWithStorage(p)
    ensures AgreesWithStorage(Replay(p, actions))
    decreases |actions|
  {
    if |actions| > 0 {
      ReplayKeepsAgreement(Step(p, actions[0]), actions[1..]);
    }
  }
}

=== FILE: auth_routes.dfy ===
/** The login and logout handlers (server/src/routes/auth.routes.ts). The
    fresh session id (`randomUUID()`), the clock, the login time text and
    `process.env.NODE_ENV` are parameters. */
module AuthRoutes {
  import opened Optional
  import opened Json
  import Shared = SharedSchemas
  import opened SessionStore
  import opened AuthGuard

  datatype SameSite = Strict | Lax

  datatype CookieFlags = CookieFlags(httpOnly: bool, secure: bool, sameSite: SameSite)

  datatype SetCookie = SetCookie(name: string, value: string, flags: CookieFlags)

  datatype LoginBody = Profile(username: string, fullName: string) | LoginError(error: string)

  datatype LoginResponse = LoginResponse(status: int, body: LoginBody, cookie: Option<SetCookie>)

  datatype LoginResult = LoginResult(response: LoginResponse, store: Store)

  predicate Matches(u: Shared.User, c: Shared.Login) {
    u.username == c.username && u.password == c.password
  }

  /** `users.find(...)` from index `from` on: the first user whose username
      and password both equal the credentials. */
  function FindUser(users: seq<Shared.User>, c: Shared.Login, from: nat): (r: Option<nat>)
    requires from <= |users|
    ensures r.Some? ==> from <= r.value < |users| && Matches(users[r.value], c)
    ensures r.Some? ==> forall j | from <= j < r.value :: !Matches(users[j], c)
    ensures r.None? ==> forall j | from <= j < |users| :: !Matches(users[j], c)
    decreases |users| - from
  {
    if from == |users| then None
    else if Matches(users[from], c) then Some(from)
    else FindUser(users, c, from + 1)
  }

  /** The cookie flags: always httpOnly; secure and strict only in production. */
  function Flags(nodeEnv: Option<string>): (f: CookieFlags)
    ensures f.httpOnly
    ensures f.secure <==> nodeEnv == Some("production")
    ensures f.sameSite == (if nodeEnv == Some("production") then Strict else Lax)
  {
    var isProduction := nodeEnv == Some("production");
    CookieFlags(true, isProduction, if isProduction then Strict else Lax)
  }

  /** POST /login. */
  function Login(body: Json, users: seq<Shared.User>, store: Store, freshSid: string,
                 now: int, loginTimestamp: string, nodeEnv: Option<string>): (r: LoginResult)
    requires freshSid !in store
    ensures Shared.ParseLogin(body).None? ==>
      r == LoginResult(LoginResponse(400, LoginError("Bad request"), None), store)
    ensures Shared.ParseLogin(body).Some? && FindUser(users, Shared.ParseLogin(body).value, 0).None? ==>
      r == LoginResult(LoginResponse(401, LoginError("Invalid credentials"), None), store)
    ensures r.response.status == 200 ==>
      && Shared.ParseLogin(body).Some?
      && var u := users[FindUser(users, Shared.ParseLogin(body).value, 0).value];
      && r.response.body == Profile(u.username, u.fullName)
      && r.response.cookie == Some(SetCookie(Shared.CookieName, freshSid, Flags(nodeEnv)))
      && r.store == CreateSession(store, freshSid, u.username, u.fullName, loginTimestamp, now)
    ensures r.response.status in {200, 400, 401}
  {
    match Shared.ParseLogin(body)
    case None => LoginResult(LoginResponse(400, LoginError("Bad request"), None), store)
    case Some(credentials) =>
      match FindUser(users, credentials, 0)
      case None => LoginResult(LoginResponse(401, LoginError("Invalid credentials"), None), store)
      case Some(i) =>
        var user := users[i];
        var next := CreateSession(store, freshSid, user.username, user.fullName, loginTimestamp, now);
        LoginResult(LoginResponse(200, Profile(user.username, user.fullName),
                                  Some(SetCookie(Shared.CookieName, freshSid, Flags(nodeEnv)))), next)
  }

  datatype LogoutResult = LogoutResult(store: Store, clearedCookie: string, status: string)

  /** POST /logout: delete the session the shared cookie names, if any; the
      cookie is cleared and the answer is `{status: 'ok'}` in every case. */
  function Logout(jar: CookieJar, store: Store): (r: LogoutResult)
    ensures r.clearedCookie == Shared.CookieName && r.status == "ok"
    ensures Shared.CookieName in jar && jar[Shared.CookieName] != "" ==>
      r.store == DeleteSession(store, jar[Shared.CookieName])
    ensures Shared.CookieName !in jar || jar[Shared.CookieName] == "" ==> r.store == store
  {
    var sid := if Shared.CookieName in jar then jar[Shared.CookieName] else "";
    LogoutResult(if sid != "" then DeleteSession(store, sid) else store, Shared.CookieName, "ok")
  }

  // ---- Properties ----

  /** Login succeeds exactly when the body is well-formed and some configured
      user has that username and password. */
  lemma LoginSucceedsIff(body: Json, users: seq<Shared.User>, store: Store, freshSid: string,
                         now: int, ts: string, nodeEnv: Option<string>)
    requires freshSid !in store
    ensures Login(body, users, store, freshSid, now, ts, nodeEnv).response.status == 200 <==>
      Shared.ParseLogin(body).Some? && exists i | 0 <= i < |users| :: Matches(users[i], Shared.ParseLogin(body).value)
  {
    if Shared.ParseLogin(body).Some? {
      var c := Shared.ParseLogin(body).value;
      if exists i | 0 <= i < |users| :: Matches(users[i], c) {
        var i :| 0 <= i < |users| && Matches(users[i], c);
        assert FindUser(users, c, 0).Some?;
      }
    }
  }

  /** On success the session belongs to the FIRST matching user, and it is the
      only session added; on any failure the store is unchanged. */
  lemma LoginUsesFirstMatch(body: Json, users: seq<Shared.User>, store: Store, freshSid: string,
                            now: int, ts: string, nodeEnv: Option<string>)
    requires freshSid !in store
    ensures
      var r := Login(body, users, store, freshSid, now, ts, nodeEnv);
      && (r.response.status == 200 ==>
            exists i | 0 <= i < |users| ::
              && Matches(users[i], Shared.ParseLogin(body).value)
              && (forall j | 0 <= j < i :: !Matches(users[j], Shared.ParseLogin(body).value))
              && r.store[freshSid].username == users[i].username
              && r.store[freshSid].fullName == users[i].fullName
              && r.store.Keys == store.Keys + {freshSid})
      && (r.response.status != 200 ==> r.store == store && r.response.cookie.None?)
  {
    var r := Login(body, users, store, freshSid, now, ts, nodeEnv);
    if r.response.status == 200 {
      var i := FindUser(users, Shared.ParseLogin(body).value, 0).value;
      assert Matches(users[i], Shared.ParseLogin(body).value);
    }
  }

  /** Logging out twice with the same cookie leaves the same store and gives
      the same answer as logging out once; so does the repeat without the
      cookie the first answer cleared. */
  lemma LogoutIdempotent(jar: CookieJar, store: Store)
    ensures Logout(jar, Logout(jar, store).store) == Logout(jar, store)
    ensures Logout(jar - {Shared.CookieName}, Logout(jar, store).store) == Logout(jar, store)
  {
  }

  /** After logout the session the cookie named is gone, and no other session is touched. */
  lemma LogoutRemovesOnlyNamedSession(jar: CookieJar, store: Store)
    requires Shared.CookieName in jar && jar[Shared.CookieName] != ""
    ensures jar[Shared.CookieName] !in Logout(jar, store).store
    ensures forall k | k in store && k != jar[Shared.CookieName] :: k in Logout(jar, store).store && Logout(jar, store).store[k] == store[k]
  {
  }
}

=== FILE: config_service.dfy ===
/** The configuration service (server/src/services/config.service.ts): the
    current options and the configured users. File reads become inputs
    (what reading the file and `JSON.parse` of its text produced) and the
    file write becomes a success flag; the JSON handed to the write is part
    of the result. A thrown error or rejected promise is a `Failure`. */
module ConfigService {
  import opened Optional
  import opened Json
  import Shared = SharedSchemas
  import ServerSchemas

  datatype ConfigState = ConfigState(options: Shared.Options, users: seq<Shared.User>)

  /** The service as constructed: a 60-minute timeout and no users. */
  const Initial := ConfigState(Shared.Options(60), [])

  /** The outcome of reading a data file and parsing its text as JSON. */
  datatype FileContent = Unreadable | NotJson | Parsed(value: Json)

  datatype Failure = ReadFailed | SyntaxError | SchemaError | WriteFailed

  /** The state after an operation, the error it threw (if any), and the
      JSON it handed to the options file write (if it got that far). */
  datatype Update = Update(state: ConfigState, failure: Option<Failure>, written: Option<Json>)

  /** The invariant every assignment to the options keeps. */
  predicate Valid(c: ConfigState) {
    Shared.ValidTimeout(c.options.sessionTimeoutMinutes)
  }

  /** `getOptions`: the current options, which in a valid state pass the
      options schema as they are. */
  function GetOptions(c: ConfigState): (r: Shared.Options)
    ensures r == c.options
    ensures Valid(c) ==> ServerSchemas.ParseOptions(Shared.OptionsJson(r)) == Some(r)
  {
    c.options
  }

  /** `getUsers`: the configured users, in file order. Written out as a
      users file, they pass the users schema as they are. */
  function GetUsers(c: ConfigState): (r: seq<Shared.User>)
    ensures r == c.users
    ensures ServerSchemas.ParseUsers(UsersFile(r)) == Some(r)
  {
    UsersFileParses(c.users);
    c.users
  }

  /** A users file holding exactly `users`, one user object per entry. */
  function UsersFile(users: seq<Shared.User>): Json {
    JArray(seq(|users|, i requires 0 <= i < |users| => Shared.UserJson(users[i])))
  }

  /** A users file written from a user list parses back to that list. */
  lemma UsersFileParses(users: seq<Shared.User>)
    ensures ServerSchemas.ParseUsers(UsersFile(users)) == Some(users)
  {
    Shared.UsersRoundTrip(users);
    ServerSchemas.UsersAgree(UsersFile(users));
  }

  datatype ReadResult = Read(json: Json) | Failed(failure: Failure)

  /** Reading one file: the parsed JSON, or the error that reading threw. */
  function ReadJson(f: FileContent): ReadResult {
    match f
    case Unreadable => Failed(ReadFailed)
    case NotJson => Failed(SyntaxError)
    case Parsed(j) => Read(j)
  }

  /** `loadConfig`: options first, assigned as soon as they validate; then
      users. A failure at any step is rethrown, and whatever was assigned
      before it stays. */
  function LoadConfig(c: ConfigState, optionsFile: FileContent, usersFile: FileContent): (r: Update)
    ensures r.written == None
    ensures r.failure.None? ==>
      && optionsFile.Parsed? && usersFile.Parsed?
      && ServerSchemas.ParseOptions(optionsFile.value) == Some(r.state.options)
      && ServerSchemas.ParseUsers(usersFile.value) == Some(r.state.users)
    ensures !optionsFile.Parsed? || ServerSchemas.ParseOptions(optionsFile.value).None? ==>
      r.state == c && r.failure.Some?
    ensures optionsFile.Parsed? && ServerSchemas.ParseOptions(optionsFile.value).Some? ==>
      && r.state.options == ServerSchemas.ParseOptions(optionsFile.value).value
      && (r.failure.Some? <==> !usersFile.Parsed? || ServerSchemas.ParseUsers(usersFile.value).None?)
      && (r.failure.Some? ==> r.state.users == c.users)
  {
    match ReadJson(optionsFile)
    case Failed(e) => Update(c, Some(e), None)
    case Read(optionsJson) =>
      match ServerSchemas.ParseOptions(optionsJson)
      case None => Update(c, Some(SchemaError), None)
      case Some(options) =>
        var withOptions := c.(options := options);
        match ReadJson(usersFile)
        case Failed(e) => Update(withOptions, Some(e), None)
        case Read(usersJson) =>
          match ServerSchemas.ParseUsers(usersJson)
          case None => Update(withOptions, Some(SchemaError), None)
          case Some(users) => Update(withOptions.(users := users), None, None)
  }

  /** `updateOptions`: validate, assign, then write the file. A failed write
      rejects, but the new options are already in place. */
  function UpdateOptions(c: ConfigState, newOptions: Shared.Options, writeOk: bool): (r: Update)
    ensures r.failure == Some(SchemaError) <==> !Shared.ValidTimeout(newOptions.sessionTimeoutMinutes)
    ensures !Shared.ValidTimeout(newOptions.sessionTimeoutMinutes) ==> r.state == c && r.written == None
    ensures Shared.ValidTimeout(newOptions.sessionTimeoutMinutes) ==>
      && r.state == c.(options := newOptions)
      && r.written == Some(Shared.OptionsJson(newOptions))
      && r.failure == (if writeOk then None else Some(WriteFailed))
  {
    match ServerSchemas.ParseOptions(Shared.OptionsJson(newOptions))
    case None => Update(c, Some(SchemaError), None)
    case Some(options) =>
      var next := c.(options := options);
      Update(next, if writeOk then None else Some(WriteFailed), Some(Shared.OptionsJson(next.options)))
  }

  // ---- Properties ----

  /** The service starts with a 60-minute timeout, which is valid. */
  lemma InitialState()
    ensures GetOptions(Initial).sessionTimeoutMinutes == 60
    ensures Valid(Initial)
  {
  }

  /** After an update is accepted, reading the options gives exactly what was
      passed in, whether or not the file write succeeded. */
  lemma UpdateThenGet(c: ConfigState, o: Shared.Options, writeOk: bool)
    requires UpdateOptions(c, o, writeOk).failure != Some(SchemaError)
    ensures GetOptions(UpdateOptions(c, o, writeOk).state) == o
    ensures GetUsers(UpdateOptions(c, o, writeOk).state) == GetUsers(c)
  {
  }

  /** What an update writes is what a later `loadConfig` reads back. */
  lemma WrittenOptionsReload(c: ConfigState, o: Shared.Options, later: ConfigState, usersFile: FileContent)
    requires Shared.ValidTimeout(o.sessionTimeoutMinutes)
    ensures
      var w := UpdateOptions(c, o, true).written.value;
      GetOptions(LoadConfig(later, Parsed(w), usersFile).state) == o
  {
  }

  /** A users file holding a list of users loads as that list, in order,
      and `getUsers` then returns it. */
  lemma LoadedUsersReadBack(c: ConfigState, optionsJson: Json, users: seq<Shared.User>)
    requires ServerSchemas.ParseOptions(optionsJson).Some?
    ensures
      var u := LoadConfig(c, Parsed(optionsJson), Parsed(UsersFile(users)));
      u.failure.None? && GetUsers(u.state) == users
  {
    UsersFileParses(users);
  }

  /** If the users file fails, `loadConfig` rethrows, yet the options it
      read first have already replaced the old ones. */
  lemma UsersFailureKeepsNewOptions(c: ConfigState, optionsJson: Json, usersFile: FileContent)
    requires ServerSchemas.ParseOptions(optionsJson).Some?
    requires !usersFile.Parsed? || ServerSchemas.ParseUsers(usersFile.value).None?
    ensures LoadConfig(c, Parsed(optionsJson), usersFile).failure.Some?
    ensures LoadConfig(c, Parsed(optionsJson), usersFile).state
            == ConfigState(ServerSchemas.ParseOptions(optionsJson).value, c.users)
  {
  }

  /** Every operation keeps the timeout within 1..1440. */
  lemma OperationsKeepValid(c: ConfigState, optionsFile: FileContent, usersFile: FileContent, o: Shared.Options, writeOk: bool)
    requires Valid(c)
    ensures Valid(LoadConfig(c, optionsFile, usersFile).state)
    ensures Valid(UpdateOptions(c, o, writeOk).state)
  {
  }

  /** The calls the rest of the server makes on the service. */
  datatype Call =
    | Load(optionsFile: FileContent, usersFile: FileContent)
    | Set(options: Shared.Options, writeOk: bool)

  function Step(c: ConfigState, call: Call): ConfigState {
    match call
    case Load(f, g) => LoadConfig(c, f, g).state
    case Set(o, ok) => UpdateOptions(c, o, ok).state
  }

  function Replay(c: ConfigState, calls: seq<Call>): ConfigState
    decreases |calls|
  {
    if |calls| == 0 then c else Replay(Step(c, calls[0]), calls[1..])
  }

  /** Whatever calls are made, failed or not, the stored timeout stays in 1..1440. */
  lemma {:induction false} ReachableStatesValid(c: ConfigState, calls: seq<Call>)
    requires Valid(c)
    ensures Valid(Replay(c, calls))
    decreases |calls|
  {
    if |calls| > 0 {
      match calls[0] {
        case Load(f, g) => OperationsKeepValid(c, f, g, Shared.Options(60), true);
        case Set(o, ok) => OperationsKeepValid(c, Unreadable, Unreadable, o, ok);
      }
      ReachableStatesValid(Step(c, calls[0]), calls[1..]);
    }
  }
}

=== FILE: decimal.dfy ===
/** Decimal text for integers: `Number.prototype.toString()` for the
    integers the model prints, and `Number.parseInt(text, 10)` for the text a
    user types. JavaScript numbers are doubles; the model uses unbounded
    integers. Reading agrees with the source on every range decision it
    makes (a value too large to be exact is still far above any bound
    checked). Printing agrees for magnitudes below 10^21, where JavaScript
    prints plain digits; from 10^21 on it switches to exponent form
    ("1e+21"), which `IntToString` does not produce. The page only prints
    timeouts that passed the 1..1440 schema. */
module Decimal {
  import opened Optional

  predicate IsDigit(c: char) {
    '0' <= c <= '9'
  }

  predicate AllDigits(s: string) {
    forall i | 0 <= i < |s| :: IsDigit(s[i])
  }

  function DigitValue(c: char): nat
    requires IsDigit(c)
  {
    (c as int) - ('0' as int)
  }

  function DigitChar(d: nat): (c: char)
    requires d < 10
    ensures IsDigit(c) && DigitValue(c) == d
  {
    (('0' as int) + d) as char
  }

  /** The value of a string of decimal digits, most significant first. */
  function DigitsValue(s: string): nat
    requires AllDigits(s)
    decreases |s|
  {
    if |s| == 0 then 0 else 10 * DigitsValue(s[..|s| - 1]) + DigitValue(s[|s| - 1])
  }

  /** `n.toString()` for a non-negative integer: shortest decimal digits. */
  function NatToString(n: nat): (r: string)
    ensures |r| > 0 && AllDigits(r)
    ensures DigitsValue(r) == n
    ensures r[0] == '0' ==> r == "0"
    decreases n
  {
    if n < 10 then [DigitChar(n)]
    else
      var prefix := NatToString(n / 10);
      var r := prefix + [DigitChar(n % 10)];
      assert r[..|r| - 1] == prefix;
      r
  }

  /** `i.toString()` for an integer of magnitude below 10^21: a minus sign
      before the digits of |i|. Larger magnitudes print in plain digits here,
      not in JavaScript's exponent form. */
  function IntToString(i: int): (r: string)
    ensures |r| > 0
    ensures i >= 0 ==> AllDigits(r) && DigitsValue(r) == i
    ensures i < 0 ==> r[0] == '-' && AllDigits(r[1..]) && DigitsValue(r[1..]) == -i
  {
    if i < 0 then "-" + NatToString(-i) else NatToString(i)
  }

  /** The characters `parseInt` skips before the number: ECMAScript's
      WhiteSpace (tab, vertical tab, form feed, space, no-break space, byte
      order mark and every space separator) and LineTerminator. */
  predicate IsStrWhiteSpace(c: char) {
    || c == '\t' || c == '\n' || c == '\U{000B}' || c == '\U{000C}' || c == '\r'
    || c == ' ' || c == '\U{00A0}' || c == '\U{1680}'
    || ('\U{2000}' <= c <= '\U{200A}')
    || c == '\U{2028}' || c == '\U{2029}' || c == '\U{202F}' || c == '\U{205F}'
    || c == '\U{3000}' || c == '\U{FEFF}'
  }

  /** `s` with its leading white space removed. */
  function TrimStart(s: string): (r: string)
    ensures |r| <= |s| && r == s[|s| - |r|..]
    ensures forall i | 0 <= i < |s| - |r| :: IsStrWhiteSpace(s[i])
    ensures |r| == 0 || !IsStrWhiteSpace(r[0])
    decreases |s|
  {
    if |s| > 0 && IsStrWhiteSpace(s[0]) then TrimStart(s[1..]) else s
  }

  /** The longest prefix of `s` made of decimal digits. */
  function LeadingDigits(s: string): (r: string)
    ensures |r| <= |s| && r == s[..|r|]
    ensures AllDigits(r)
    ensures |r| == |s| || !IsDigit(s[|r|])
    decreases |s|
  {
    if |s| > 0 && IsDigit(s[0]) then [s[0]] + LeadingDigits(s[1..]) else ""
  }

  /** `Number.parseInt(s, 10)`: skip white space, read an optional sign, then
      the leading decimal digits; with no digit the result is NaN, here None.
      Anything after the digits is ignored. */
  function ParseInt(s: string): (r: Option<int>)
    ensures s == "" ==> r.None?
    ensures |s| > 0 && IsDigit(s[0]) ==> r == Some(DigitsValue(LeadingDigits(s)))
  {
    DigitStartUntrimmed(s);
    ParseSigned(TrimStart(s))
  }

  /** Text that starts with a digit has no white space to trim, and reads
      as the value of its leading digits. */
  lemma DigitStartUntrimmed(s: string)
    ensures |s| > 0 && IsDigit(s[0]) ==> ParseSigned(TrimStart(s)) == Some(DigitsValue(LeadingDigits(s)))
  {
    if |s| > 0 && IsDigit(s[0]) {
      assert !IsStrWhiteSpace(s[0]);
      assert TrimStart(s) == s;
      assert s[0] != '-' && s[0] != '+';
    }
  }

  /** The part of `parseInt` after the white space: sign, then digits. */
  function ParseSigned(t: string): Option<int> {
    if |t| > 0 && t[0] == '-' then
      match ParseDigits(t[1..])
      case Some(v) => Some(-v)
      case None => None
    else if |t| > 0 && t[0] == '+' then ParseDigits(t[1..])
    else ParseDigits(t)
  }

  /** The value of the leading digits of `u`, absent when there are none. */
  function ParseDigits(u: string): (r: Option<int>)
    ensures r.Some? <==> |u| > 0 && IsDigit(u[0])
    ensures r.Some? ==> r.value >= 0
  {
    var digits := LeadingDigits(u);
    if |digits| == 0 then None else Some(DigitsValue(digits))
  }

  /** Leading digits stop exactly where a run of digits meets a non-digit. */
  lemma {:induction false} LeadingDigitsOfDigitRun(x: string, tail: string)
    requires AllDigits(x)
    requires tail == "" || !IsDigit(tail[0])
    ensures LeadingDigits(x + tail) == x
    decreases |x|
  {
    if |x| == 0 {
      assert x + tail == tail;
    } else {
      assert (x + tail)[1..] == x[1..] + tail;
      LeadingDigitsOfDigitRun(x[1..], tail);
      assert [x[0]] + x[1..] == x;
    }
  }

  /** Trimming skips a white-space prefix entirely. */
  lemma {:induction false} TrimStartSkips(ws: string, s: string)
    requires forall i | 0 <= i < |ws| :: IsStrWhiteSpace(ws[i])
    ensures TrimStart(ws + s) == TrimStart(s)
    decreases |ws|
  {
    if |ws| > 0 {
      assert IsStrWhiteSpace((ws + s)[0]);
      assert (ws + s)[1..] == ws[1..] + s;
      TrimStartSkips(ws[1..], s);
    } else {
      assert ws + s == s;
    }
  }

  /** A digit run followed by a non-digit reads as its value. */
  lemma DigitsOfDigitRun(digits: string, tail: string)
    requires |digits| > 0 && AllDigits(digits)
    requires tail == "" || !IsDigit(tail[0])
    ensures ParseDigits(digits + tail) == Some(DigitsValue(digits) as int)
  {
    LeadingDigitsOfDigitRun(digits, tail);
  }

  /** Without a sign the digits are read as they stand. */
  lemma UnsignedOfDigitRun(digits: string, tail: string)
    requires |digits| > 0 && AllDigits(digits)
    requires tail == "" || !IsDigit(tail[0])
    ensures ParseSigned(digits + tail) == Some(DigitsValue(digits) as int)
  {
    DigitsOfDigitRun(digits, tail);
    var t := digits + tail;
    assert t[0] == digits[0];
    assert t[0] != '-' && t[0] != '+';
  }

  /** A minus sign negates whatever the digits after it read as. */
  lemma NegativeSign(u: string)
    ensures ParseSigned("-" + u) == if ParseDigits(u).Some? then Some(-ParseDigits(u).value) else None
  {
    var t := "-" + u;
    assert t[0] == '-' && t[1..] == u;
  }

  /** Text that starts with a non-space is read from its first character. */
  lemma ParseIntUntrimmed(s: string)
    requires |s| > 0 && !IsStrWhiteSpace(s[0])
    ensures ParseInt(s) == ParseSigned(s)
  {
    assert TrimStart(s) == s;
  }

  /** A non-negative number's digits, then a non-digit, read as the number. */
  lemma ParseIntOfDigits(n: nat, tail: string)
    requires tail == "" || !IsDigit(tail[0])
    ensures ParseInt(NatToString(n) + tail) == Some(n)
  {
    var digits := NatToString(n);
    var text := digits + tail;
    UnsignedOfDigitRun(digits, tail);
    assert text[0] == digits[0];
    ParseIntUntrimmed(text);
  }

  /** A minus sign, a number's digits, then a non-digit, read as the negated number. */
  lemma ParseIntOfNegated(n: nat, tail: string)
    requires tail == "" || !IsDigit(tail[0])
    ensures ParseInt("-" + (NatToString(n) + tail)) == Some(-(n as int))
  {
    var u := NatToString(n) + tail;
    var t := "-" + u;
    DigitsOfDigitRun(NatToString(n), tail);
    NegativeSign(u);
    assert t[0] == '-';
    ParseIntUntrimmed(t);
    assert ParseSigned(t) == Some(-(n as int));
  }

  /** A plus sign, a number's digits, then a non-digit, read as the number. */
  lemma ParseIntOfPlus(n: nat, tail: string)
    requires tail == "" || !IsDigit(tail[0])
    ensures ParseInt("+" + (NatToString(n) + tail)) == Some(n)
  {
    var u := NatToString(n) + tail;
    var t := "+" + u;
    DigitsOfDigitRun(NatToString(n), tail);
    assert t[0] == '+' && t[1..] == u;
    ParseIntUntrimmed(t);
    assert ParseSigned(t) == Some(n);
  }

  /** Concatenation regrouped. */
  lemma Regroup(a: string, b: string, c: string)
    ensures (a + b) + c == a + (b + c)
  {
  }

  /** Reading back what `IntToString` printed gives the number again,
      whatever non-digit text follows it ("60", "60 min" and "60.5" all read
      as 60). For magnitudes of 10^21 and more this is a property of the
      plain-digit printing, not of JavaScript's exponent form. */
  lemma ParseIntOfToString(i: int, tail: string)
    requires tail == "" || !IsDigit(tail[0])
    ensures ParseInt(IntToString(i) + tail) == Some(i)
  {
    if i < 0 {
      var n: nat := -i;
      var d := NatToString(n);
      assert IntToString(i) == "-" + d;
      Regroup("-", d, tail);
      ParseIntOfNegated(n, tail);
      assert ParseInt("-" + (d + tail)) == Some(i);
      assert IntToString(i) + tail == "-" + (d + tail);
    } else {
      var n: nat := i;
      assert IntToString(i) == NatToString(n);
      ParseIntOfDigits(n, tail);
    }
  }

  /** The same after leading white space, as in a text field " 30 min". */
  lemma ParseIntOfPaddedToString(ws: string, i: int, tail: string)
    requires forall k | 0 <= k < |ws| :: IsStrWhiteSpace(ws[k])
    requires tail == "" || !IsDigit(tail[0])
    ensures ParseInt(ws + IntToString(i) + tail) == Some(i)
  {
    var p := IntToString(i);
    Regroup(ws, p, tail);
    ParseIntOfToString(i, tail);
    ParseIntSkipsWhiteSpace(ws, p + tail);
  }

  /** White space in front of a number does not change what `parseInt` reads. */
  lemma ParseIntSkipsWhiteSpace(ws: string, s: string)
    requires forall i | 0 <= i < |ws| :: IsStrWhiteSpace(ws[i])
    ensures ParseInt(ws + s) == ParseInt(s)
  {
    TrimStartSkips(ws, s);
  }

  /** Text without any digit is NaN; in particular the empty string is. */
  lemma ParseIntNeedsADigit(s: string)
    requires forall i | 0 <= i < |s| :: !IsDigit(s[i])
    ensures ParseInt(s) == None
  {
    var t := TrimStart(s);
    assert forall i | 0 <= i < |t| :: !IsDigit(t[i]) by {
      forall i | 0 <= i < |t| ensures !IsDigit(t[i]) {
        assert t[i] == s[|s| - |t| + i];
      }
    }
    var unsigned := if |t| > 0 && (t[0] == '-' || t[0] == '+') then t[1..] else t;
    assert |unsigned| == 0 || !IsDigit(unsigned[0]);
  }
}

=== FILE: json.dfy ===
/** Parsed JSON values, as the server receives request bodies and as the
    client reads them back from local storage. Numbers are integers only:
    fractional numbers are outside the model. */
module Json {
  import opened Optional

  datatype Json =
    | JNull
    | JBool(b: bool)
    | JNumber(n: int)
    | JString(s: string)
    | JArray(items: seq<Json>)
    | JObject(fields: map<string, Json>)

  /** The value stored under `key` when `j` is an object that has that key. */
  function Member(j: Json, key: string): (r: Option<Json>)
    ensures r.Some? <==> j.JObject? && key in j.fields
    ensures r.Some? ==> r.value == j.fields[key]
  {
    if j.JObject? && key in j.fields then Some(j.fields[key]) else None
  }

  /** The string under `key`; absent when the key is missing or holds a non-string. */
  function StringMember(j: Json, key: string): (r: Option<string>)
    ensures r.Some? <==> Member(j, key).Some? && Member(j, key).value.JString?
    ensures r.Some? ==> Member(j, key) == Some(JString(r.value))
  {
    match Member(j, key)
    case Some(JString(s)) => Some(s)
    case _ => None
  }

  /** The number under `key`; absent when the key is missing or holds a non-number. */
  function NumberMember(j: Json, key: string): (r: Option<int>)
    ensures r.Some? <==> Member(j, key).Some? && Member(j, key).value.JNumber?
    ensures r.Some? ==> Member(j, key) == Some(JNumber(r.value))
  {
    match Member(j, key)
    case Some(JNumber(n)) => Some(n)
    case _ => None
  }
}

=== FILE: optional.dfy ===
/** The "value or absent" type the model uses wherever the source returns
    `undefined`, `null` or throws a validation error. */
module Optional {
  datatype Option<+T> = None | Some(value: T)
}

=== FILE: server_schemas.dfy ===
/** The server's own copy of the schemas (server/src/shared/schemas.ts),
    which the configuration service and the API routes validate with. The
    rules are written out again here, as the source does, and each is proved
    to accept and produce exactly what the shared copy does; the record types
    are the shared ones. */
module ServerSchemas {
  import opened Optional
  import opened Json
  import Shared = SharedSchemas

  /** UserSchema (server copy). */
  function ParseUser(j: Json): Option<Shared.User> {
    if !j.JObject? then None
    else if "username" in j.fields && "password" in j.fields && "fullName" in j.fields
         && j.fields["username"].JString? && j.fields["password"].JString? && j.fields["fullName"].JString?
    then Some(Shared.User(j.fields["username"].s, j.fields["password"].s, j.fields["fullName"].s))
    else None
  }

  /** OptionsSchema (server copy): 1 <= sessionTimeoutMinutes <= 1440. */
  function ParseOptions(j: Json): (r: Option<Shared.Options>)
    ensures r.Some? ==> Shared.ValidTimeout(r.value.sessionTimeoutMinutes)
    ensures r.Some? ==> Member(j, "sessionTimeoutMinutes") == Some(JNumber(r.value.sessionTimeoutMinutes))
  {
    if j.JObject? && "sessionTimeoutMinutes" in j.fields && j.fields["sessionTimeoutMinutes"].JNumber? then
      var n := j.fields["sessionTimeoutMinutes"].n;
      if 1 <= n && n <= 1440 then Some(Shared.Options(n)) else None
    else None
  }

  /** LoginSchema (server copy). */
  function ParseLogin(j: Json): Option<Shared.Login> {
    if j.JObject? && "username" in j.fields && "password" in j.fields
       && j.fields["username"].JString? && j.fields["password"].JString?
    then Some(Shared.Login(j.fields["username"].s, j.fields["password"].s))
    else None
  }

  /** UserSchema.array() (server copy). */
  function ParseUsers(j: Json): Option<seq<Shared.User>> {
    if j.JArray? then ParseEach(j.items) else None
  }

  function ParseEach(items: seq<Json>): Option<seq<Shared.User>>
    decreases |items|
  {
    if |items| == 0 then Some([])
    else
      match ParseUser(items[0])
      case None => None
      case Some(u) =>
        match ParseEach(items[1..])
        case None => None
        case Some(rest) => Some([u] + rest)
  }

  /** ServerInfoSchema (server copy): `user` is nullable. */
  function ParseServerInfo(j: Json, isDateTime: string -> bool): Option<Shared.ServerInfo> {
    if !j.JObject? then None
    else
      var f := j.fields;
      if !("startTimestamp" in f && "serverTime" in f && "nodeVersion" in f && "expressVersion" in f && "user" in f) then None
      else if !(f["startTimestamp"].JString? && f["serverTime"].JString? && f["nodeVersion"].JString? && f["expressVersion"].JString?) then None
      else if !isDateTime(f["startTimestamp"].s) || !isDateTime(f["serverTime"].s) then None
      else if f["user"] == JNull then
        Some(Shared.ServerInfo(f["startTimestamp"].s, f["serverTime"].s, f["nodeVersion"].s, f["expressVersion"].s, None))
      else
        var u := f["user"];
        if u.JObject? && "username" in u.fields && "fullName" in u.fields && "loginTimestamp" in u.fields
           && u.fields["username"].JString? && u.fields["fullName"].JString? && u.fields["loginTimestamp"].JString?
           && isDateTime(u.fields["loginTimestamp"].s)
        then
          Some(Shared.ServerInfo(f["startTimestamp"].s, f["serverTime"].s, f["nodeVersion"].s, f["expressVersion"].s,
            Some(Shared.InfoUser(u.fields["username"].s, u.fields["fullName"].s, u.fields["loginTimestamp"].s))))
        else None
  }

  // ---- The two copies agree ----

  /** Both copies accept exactly the same options, with the same result. */
  lemma OptionsAgree(j: Json)
    ensures ParseOptions(j) == Shared.ParseOptions(j)
  {
  }

  lemma UserAgrees(j: Json)
    ensures ParseUser(j) == Shared.ParseUser(j)
  {
  }

  lemma LoginAgrees(j: Json)
    ensures ParseLogin(j) == Shared.ParseLogin(j)
  {
  }

  lemma {:induction false} UserListAgrees(items: seq<Json>)
    ensures ParseEach(items) == Shared.ParseUserList(items)
    decreases |items|
  {
    if |items| > 0 {
      UserAgrees(items[0]);
      UserListAgrees(items[1..]);
    }
  }

  lemma UsersAgree(j: Json)
    ensures ParseUsers(j) == Shared.ParseUsers(j)
  {
    if j.JArray? {
      UserListAgrees(j.items);
    }
  }

  lemma ServerInfoAgrees(j: Json, isDateTime: string -> bool)
    ensures ParseServerInfo(j, isDateTime) == Shared.ParseServerInfo(j, isDateTime)
  {
  }
}

=== FILE: session_store.dfy ===
/** The in-memory session store (server/src/services/session.service.ts): a
    map from session id to session record. The clock (`Date.now()`) and the
    login time text (`new Date().toISOString()`) are parameters, and the
    random id (`randomUUID()`) is a fresh id supplied by the caller. */
module SessionStore {
  import opened Optional

  datatype Session = Session(
    username: string,
    fullName: string,
    loginTimestamp: string,   // informational only
    lastActive: int)          // milliseconds; drives expiry

  type Store = map<string, Session>

  /** `createSession`: a new record under a fresh id, active as of `now`. */
  function CreateSession(store: Store, sid: string, username: string, fullName: string, loginTimestamp: string, now: int): (r: Store)
    requires sid !in store
    ensures r.Keys == store.Keys + {sid}
    ensures r[sid].username == username && r[sid].fullName == fullName
    ensures r[sid].loginTimestamp == loginTimestamp && r[sid].lastActive == now
    ensures forall k | k in store :: r[k] == store[k]
    ensures |r| == |store| + 1
  {
    store[sid := Session(username, fullName, loginTimestamp, now)]
  }

  /** `getSession`: the record for a live id, absent otherwise. */
  function GetSession(store: Store, sid: string): (r: Option<Session>)
    ensures r.Some? <==> sid in store
    ensures r.Some? ==> r.value == store[sid]
  {
    if sid in store then Some(store[sid]) else None
  }

  /** `updateActivity`: a live session's `lastActive` becomes `now`; an
      unknown id is silently ignored. */
  function UpdateActivity(store: Store, sid: string, now: int): (r: Store)
    ensures r.Keys == store.Keys
    ensures sid in store ==> r[sid] == store[sid].(lastActive := now)
    ensures forall k | k in store && k != sid :: r[k] == store[k]
    ensures sid !in store ==> r == store
  {
    if sid in store then store[sid := store[sid].(lastActive := now)] else store
  }

  /** `deleteSession`: the id is gone, all other sessions stay. */
  function DeleteSession(store: Store, sid: string): (r: Store)
    ensures r.Keys == store.Keys - {sid}
    ensures forall k | k in r :: r[k] == store[k]
    ensures sid !in store ==> r == store
  {
    store - {sid}
  }

  /** No session was last active after `now`: what a clock that never runs
      backwards guarantees of every store it has written. */
  predicate ClockBound(store: Store, now: int) {
    forall k | k in store :: store[k].lastActive <= now
  }

  // ---- Single-operation properties ----

  /** A created session is found at once, with the data it was created with. */
  lemma CreateThenGet(store: Store, sid: string, username: string, fullName: string, loginTimestamp: string, now: int)
    requires sid !in store
    ensures GetSession(CreateSession(store, sid, username, fullName, loginTimestamp, now), sid)
            == Some(Session(username, fullName, loginTimestamp, now))
  {
  }

  /** Looking up a deleted or never-created id finds nothing. */
  lemma GetAfterDelete(store: Store, sid: string)
    ensures GetSession(DeleteSession(store, sid), sid) == None
  {
  }

  /** Deleting twice is the same as deleting once. */
  lemma DeleteIdempotent(store: Store, sid: string)
    ensures DeleteSession(DeleteSession(store, sid), sid) == DeleteSession(store, sid)
  {
  }

  /** Refreshing with a clock that has not gone back never lowers `lastActive`,
      and changes nothing but `lastActive`. */
  lemma UpdateActivityMonotone(store: Store, sid: string, now: int)
    requires ClockBound(store, now)
    requires sid in store
    ensures UpdateActivity(store, sid, now)[sid].lastActive >= store[sid].lastActive
    ensures UpdateActivity(store, sid, now)[sid].username == store[sid].username
    ensures UpdateActivity(store, sid, now)[sid].fullName == store[sid].fullName
    ensures UpdateActivity(store, sid, now)[sid].loginTimestamp == store[sid].loginTimestamp
  {
  }

  // ---- Sequences of operations ----

  datatype Op =
    | Create(sid: string, username: string, fullName: string, loginTimestamp: string)
    | Touch(sid: string)
    | Delete(sid: string)

  /** An operation and the clock reading it was performed at. */
  datatype TimedOp = TimedOp(op: Op, at: int)

  /** One operation; absent only when a Create reuses a live id, which a
      random UUID never does. */
  function Apply(store: Store, t: TimedOp): Option<Store> {
    match t.op
    case Create(sid, username, fullName, ts) =>
      if sid in store then None else Some(CreateSession(store, sid, username, fullName, ts, t.at))
    case Touch(sid) => Some(UpdateActivity(store, sid, t.at))
    case Delete(sid) => Some(DeleteSession(store, sid))
  }

  function Run(store: Store, ops: seq<TimedOp>): Option<Store>
    decreases |ops|
  {
    if |ops| == 0 then Some(store)
    else
      match Apply(store, ops[0])
      case None => None
      case Some(next) => Run(next, ops[1..])
  }

  /** The clock reads at least `from` and never goes backwards along `ops`. */
  predicate ClockFrom(ops: seq<TimedOp>, from: int)
    decreases |ops|
  {
    |ops| == 0 || (from <= ops[0].at && ClockFrom(ops[1..], ops[0].at))
  }

  /** One operation at a time no earlier than `from`: old sessions keep or
      raise `lastActive`, new ones start at the operation's time, and no
      session is active after it. */
  lemma ApplyKeepsActivityFloor(store: Store, t: TimedOp, from: int)
    requires ClockBound(store, from) && from <= t.at
    requires Apply(store, t).Some?
    ensures ClockBound(Apply(store, t).value, t.at)
    ensures forall k | k in Apply(store, t).value && k in store :: Apply(store, t).value[k].lastActive >= store[k].lastActive
    ensures forall k | k in Apply(store, t).value && k !in store :: Apply(store, t).value[k].lastActive >= from
  {
  }

  /** Every session after a run was last active no earlier than it was before
      the run, or, if it is new, no earlier than the run started. */
  lemma {:induction false} RunKeepsActivityFloor(store: Store, ops: seq<TimedOp>, from: int, final: Store)
    requires ClockBound(store, from)
    requires ClockFrom(ops, from)
    requires Run(store, ops) == Some(final)
    ensures forall k | k in final && k in store :: final[k].lastActive >= store[k].lastActive
    ensures forall k | k in final && k !in store :: final[k].lastActive >= from
    decreases |ops|
  {
    if |ops| > 0 {
      var t := ops[0];
      ApplyKeepsActivityFloor(store, t, from);
      var next := Apply(store, t).value;
      assert Run(next, ops[1..]) == Some(final);
      RunKeepsActivityFloor(next, ops[1..], t.at, final);
    }
  }

  /** With a clock that never goes backwards, a session's `lastActive` never
      decreases over any sequence of creates, refreshes and deletes. */
  lemma LastActiveNeverDecreases(store: Store, ops: seq<TimedOp>, from: int, final: Store, sid: string)
    requires ClockBound(store, from)
    requires ClockFrom(ops, from)
    requires Run(store, ops) == Some(final)
    requires sid in store && sid in final
    ensures final[sid].lastActive >= store[sid].lastActive
  {
    RunKeepsActivityFloor(store, ops, from, final);
  }
}

=== FILE: settings_page.dfy ===
/** The settings page's logic (client/src/pages/settings-page.tsx): the
    timeout text field, filled from the fetched options and validated with
    `Number.parseInt` on submit; the theme toggle; and the message shown
    after the update request settles. Rendering is left out.

    A cached options object is a `QueryData`: its `tag` stands for object
    identity, which the page's `!==` comparison looks at. The query library
    shares structure: data deep-equal to the cached object leaves the cached
    object in place, and only different data becomes a new object. */
module SettingsPage {
  import opened Optional
  import opened Json
  import opened Decimal
  import Shared = SharedSchemas
  import opened UseTheme
  import opened AuthGuard
  import SessionStore
  import Config = ConfigService
  import ApiRoutes

  const RangeMessage := "Timeout must be between 1 and 1440 minutes"
  const SuccessText := "Settings updated successfully"
  const FallbackErrorText := "Update failed"
  const FetchFailedText := "Failed to fetch options"
  const UpdateFailedText := "Failed to update options"

  datatype Severity = SuccessAlert | ErrorAlert

  datatype Message = Message(severity: Severity, text: string)

  /** One options object held by the query cache. */
  datatype QueryData = QueryData(tag: nat, options: Shared.Options)

  /** The cached ['options'] query and the page's own state. */
  datatype Screen = Screen(
    cached: Option<QueryData>,
    input: string,
    lastSynced: Option<QueryData>,
    message: Option<Message>)

  /** Before anything is fetched: an empty field and no message. */
  const Initial := Screen(None, "", None, None)

  /** The ['options'] cache entry receives `o`, from a fetch or from
      `setQueryData`. Equal options keep the cached object; other options
      become a new object, tagged `freshTag`. */
  function CacheOptions(s: Screen, o: Shared.Options, freshTag: nat): (r: Screen)
    ensures r.input == s.input && r.lastSynced == s.lastSynced && r.message == s.message
    ensures r.cached.Some? && r.cached.value.options == o
    ensures s.cached.Some? && s.cached.value.options == o ==> r.cached == s.cached
    ensures (s.cached.None? || s.cached.value.options != o) ==> r.cached.value.tag == freshTag
  {
    if s.cached.Some? && s.cached.value.options == o then s
    else s.(cached := Some(QueryData(freshTag, o)))
  }

  // ---- Requests ----

  /** What a thrown value is: an `Error` with its message, or anything else. */
  datatype Thrown = ErrorValue(message: string) | OtherValue

  datatype RequestResult = Resolved(options: Shared.Options) | Threw(error: Thrown)

  /** `fetchOptions` and `updateOptions` after the response arrives: a status
      outside 200..299 throws `failText`; a body that fails the options schema
      throws the schema's error, whose text is `schemaMessage`. */
  function ReadOptionsResponse(status: int, body: Json, failText: string, schemaMessage: string): (r: RequestResult)
    ensures r.Resolved? <==> 200 <= status <= 299 && Shared.ParseOptions(body).Some?
    ensures r.Resolved? ==> Shared.ValidTimeout(r.options.sessionTimeoutMinutes) && NumberMember(body, "sessionTimeoutMinutes") == Some(r.options.sessionTimeoutMinutes)
    ensures !(200 <= status <= 299) ==> r == Threw(ErrorValue(failText))
  {
    if !(200 <= status <= 299) then Threw(ErrorValue(failText))
    else match Shared.ParseOptions(body)
      case None => Threw(ErrorValue(schemaMessage))
      case Some(o) => Resolved(o)
  }

  function FetchOptions(status: int, body: Json, schemaMessage: string): RequestResult {
    ReadOptionsResponse(status, body, FetchFailedText, schemaMessage)
  }

  function UpdateOptions(status: int, body: Json, schemaMessage: string): RequestResult {
    ReadOptionsResponse(status, body, UpdateFailedText, schemaMessage)
  }

  // ---- The page ----

  /** Each render: a fetched object not yet synced replaces the field's text
      with its timeout in decimal and becomes the synced object. */
  function Sync(s: Screen): (r: Screen)
    ensures r.cached == s.cached && r.message == s.message
    ensures s.cached.Some? ==> r.lastSynced == s.cached
    ensures s.cached.Some? && s.cached != s.lastSynced ==>
      ParseInt(r.input) == Some(s.cached.value.options.sessionTimeoutMinutes)
  {
    if s.cached.Some? && s.cached != s.lastSynced then
      var r := s.(input := IntToString(s.cached.value.options.sessionTimeoutMinutes), lastSynced := s.cached);
      assert r.input + "" == r.input;
      ParseIntOfToString(s.cached.value.options.sessionTimeoutMinutes, "");
      r
    else s
  }

  /** The user types into the field. */
  function Edit(s: Screen, text: string): (r: Screen)
    ensures r.input == text && r.cached == s.cached && r.lastSynced == s.lastSynced && r.message == s.message
  {
    s.(input := text)
  }

  datatype Submission = Refuse(message: Message) | Mutate(options: Shared.Options)

  /** `handleSubmit`: an empty field, a NaN, or a number outside 1..1440 is
      refused with the range message; otherwise the number is sent. */
  function HandleSubmit(input: string): (r: Submission)
    ensures r.Mutate? <==> ParseInt(input).Some? && Shared.ValidTimeout(ParseInt(input).value)
    ensures r.Mutate? ==> r.options == Shared.Options(ParseInt(input).value)
    ensures r.Refuse? ==> r.message == Message(ErrorAlert, RangeMessage)
  {
    var minutes := ParseInt(input);
    if input == "" || minutes.None? || minutes.value < 1 || minutes.value > 1440 then
      Refuse(Message(ErrorAlert, RangeMessage))
    else
      Mutate(Shared.Options(minutes.value))
  }

  /** The submit on the screen: a refusal shows its message, a mutation
      leaves the screen as it is and yields the options to send. */
  function Submit(s: Screen): (r: (Screen, Option<Shared.Options>))
    ensures HandleSubmit(s.input).Refuse? ==> r == (s.(message := Some(Message(ErrorAlert, RangeMessage))), None)
    ensures HandleSubmit(s.input).Mutate? ==> r == (s, Some(HandleSubmit(s.input).options))
  {
    match HandleSubmit(s.input)
    case Refuse(m) => (s.(message := Some(m)), None)
    case Mutate(o) => (s, Some(o))
  }

  /** The `onError` text: the Error's own message, else a fixed fallback. */
  function ErrorText(e: Thrown): (r: string)
    ensures e.ErrorValue? ==> r == e.message
    ensures e.OtherValue? ==> r == FallbackErrorText
  {
    match e
    case ErrorValue(m) => m
    case OtherValue => FallbackErrorText
  }

  /** The update request settles. On success the returned options go into
      the cache (a new object only when they differ from the cached ones)
      and a success message shows; on failure the error's text shows and
      the cache is untouched. */
  function Settle(s: Screen, result: RequestResult, freshTag: nat): (r: Screen)
    ensures r.input == s.input && r.lastSynced == s.lastSynced
    ensures result.Resolved? ==>
      && r.cached.Some? && r.cached.value.options == result.options
      && r.message == Some(Message(SuccessAlert, SuccessText))
    ensures result.Resolved? && s.cached.Some? && s.cached.value.options == result.options ==> r.cached == s.cached
    ensures result.Resolved? && (s.cached.None? || s.cached.value.options != result.options) ==>
      r.cached == Some(QueryData(freshTag, result.options))
    ensures result.Threw? ==> r == s.(message := Some(Message(ErrorAlert, ErrorText(result.error))))
  {
    match result
    case Resolved(o) => CacheOptions(s, o, freshTag).(message := Some(Message(SuccessAlert, SuccessText)))
    case Threw(e) => s.(message := Some(Message(ErrorAlert, ErrorText(e))))
  }

  /** `handleThemeChange`: a deselection (null) is ignored; any choice is selected. */
  function HandleThemeChange(h: Hook, choice: Option<Theme>, prefersDark: bool): (r: Hook)
    ensures choice.None? ==> r == h
    ensures choice.Some? ==> r.theme == choice.value
  {
    match choice
    case None => h
    case Some(t) => SetTheme(h, t, prefersDark)
  }

  // ---- Properties ----

  /** An empty field is refused and nothing is sent. */
  lemma EmptyInputRefused(s: Screen)
    requires s.input == ""
    ensures HandleSubmit(s.input) == Refuse(Message(ErrorAlert, RangeMessage))
    ensures Submit(s).1 == None
  {
  }

  /** A number printed in plain digits is sent exactly when it lies in
      1..1440; in particular 1 and 1440 are sent and 0 and 1441 refused. */
  lemma SubmitPrintedNumber(n: int)
    ensures HandleSubmit(IntToString(n)).Mutate? <==> 1 <= n <= 1440
    ensures HandleSubmit(IntToString(n)).Mutate? ==> HandleSubmit(IntToString(n)).options == Shared.Options(n)
  {
    ParseIntOfToString(n, "");
    assert IntToString(n) + "" == IntToString(n);
  }

  /** Whatever is sent passes the options schema on both ends unchanged. */
  lemma SubmittedOptionsPassSchema(input: string)
    requires HandleSubmit(input).Mutate?
    ensures Shared.ParseOptions(Shared.OptionsJson(HandleSubmit(input).options)) == Some(HandleSubmit(input).options)
  {
    Shared.OptionsRoundTrip(HandleSubmit(input).options);
  }

  /** `parseInt` is lenient: leading white space and any text after the
      number are ignored, so " 30 min" sends 30. */
  lemma SubmitReadsLeadingNumber(ws: string, n: int, tail: string)
    requires forall i | 0 <= i < |ws| :: IsStrWhiteSpace(ws[i])
    requires tail == "" || !IsDigit(tail[0])
    requires Shared.ValidTimeout(n)
    ensures HandleSubmit(ws + IntToString(n) + tail) == Mutate(Shared.Options(n))
  {
    ParseIntOfPaddedToString(ws, n, tail);
  }

  /** Syncing twice is syncing once. */
  lemma SyncIdempotent(s: Screen)
    ensures Sync(Sync(s)) == Sync(s)
  {
  }

  /** What the user types survives later renders of the same fetched object. */
  lemma EditSurvivesRerender(s: Screen, text: string)
    ensures Sync(Edit(Sync(s), text)) == Edit(Sync(s), text)
  {
  }

  /** After a render, the user types; then the cache receives options `o`.
      Unsaved typing is replaced by `o`'s timeout exactly when `o` differs
      from the synced options; equal options keep the cached object, so the
      typing stays. */
  lemma OnlyChangedOptionsResetInput(s: Screen, text: string, o: Shared.Options, freshTag: nat)
    requires s.cached.Some? && s.cached == s.lastSynced
    requires freshTag != s.lastSynced.value.tag
    ensures
      Sync(CacheOptions(Edit(s, text), o, freshTag)).input
        == (if o == s.lastSynced.value.options then text else IntToString(o.sessionTimeoutMinutes))
  {
  }

  /** Submitting the synced field unchanged sends the fetched options back. */
  lemma SubmitAfterSync(s: Screen)
    requires s.cached.Some? && s.cached != s.lastSynced
    requires Shared.ValidTimeout(s.cached.value.options.sessionTimeoutMinutes)
    ensures HandleSubmit(Sync(s).input) == Mutate(s.cached.value.options)
  {
  }

  /** The field's text sent `o` and the update succeeded. The next render
      shows the success message, and the field still reads as the saved
      timeout, so submitting again sends the same options. The text is
      reprinted when `o` differed from the cached options, and left as
      typed when it equalled the synced ones. */
  lemma SavedValueShown(s: Screen, o: Shared.Options, freshTag: nat)
    requires HandleSubmit(s.input) == Mutate(o)
    requires s.lastSynced.None? || s.lastSynced.value.tag != freshTag
    ensures var next := Sync(Settle(s, Resolved(o), freshTag));
      && ParseInt(next.input) == Some(o.sessionTimeoutMinutes)
      && next.message == Some(Message(SuccessAlert, SuccessText))
      && HandleSubmit(next.input) == Mutate(o)
    ensures s.cached.None? || s.cached.value.options != o ==>
      Sync(Settle(s, Resolved(o), freshTag)).input == IntToString(o.sessionTimeoutMinutes)
    ensures s.cached.Some? && s.cached == s.lastSynced && s.cached.value.options == o ==>
      Sync(Settle(s, Resolved(o), freshTag)).input == s.input
  {
  }

  /** After a fetch the field holds a timeout the submit accepts, unless the
      fetch brought the options already synced, in which case the field is
      as the user left it: what the server hands out passes the client's
      check. */
  lemma FetchedOptionsResubmit(s: Screen, status: int, body: Json, schemaMessage: string, freshTag: nat)
    requires FetchOptions(status, body, schemaMessage).Resolved?
    requires s.cached == s.lastSynced
    requires s.lastSynced.None? || s.lastSynced.value.tag != freshTag
    ensures
      var o := FetchOptions(status, body, schemaMessage).options;
      HandleSubmit(Sync(CacheOptions(s, o, freshTag)).input)
        == (if s.cached.Some? && s.cached.value.options == o then HandleSubmit(s.input) else Mutate(o))
  {
  }

  /** A valid field, sent to the server behind a passing guard: the server's
      options become the sent ones; the page shows success when the options
      file was written, and "Failed to update options" when it was not, even
      though the server already uses the new timeout. */
  lemma SubmitThroughServer(s: Screen, jar: CookieJar, sessions: SessionStore.Store, config: Config.ConfigState,
                            now: int, writeOk: bool, schemaMessage: string, freshTag: nat)
    requires HandleSubmit(s.input).Mutate?
    requires ApiRoutes.GuardOf(jar, sessions, config, now).outcome.Proceed?
    ensures
      var o := HandleSubmit(s.input).options;
      var server := ApiRoutes.HandleApi(ApiRoutes.PostOptions(Shared.OptionsJson(o)), jar, sessions, config, now, writeOk);
      var answer := UpdateOptions(server.response.status, ApiRoutes.BodyJson(server.response.body), schemaMessage);
      && server.config.options == o
      && answer == (if writeOk then Resolved(o) else Threw(ErrorValue(UpdateFailedText)))
      && Settle(s, answer, freshTag).message
         == Some(if writeOk then Message(SuccessAlert, SuccessText) else Message(ErrorAlert, UpdateFailedText))
  {
    SubmittedOptionsPassSchema(s.input);
  }

  /** A request the guard refuses shows "Failed to update options" and
      leaves the server's options alone. */
  lemma RefusedRequestShowsFailure(s: Screen, jar: CookieJar, sessions: SessionStore.Store, config: Config.ConfigState,
                                   now: int, writeOk: bool, schemaMessage: string, freshTag: nat)
    requires HandleSubmit(s.input).Mutate?
    requires !ApiRoutes.GuardOf(jar, sessions, config, now).outcome.Proceed?
    ensures
      var o := HandleSubmit(s.input).options;
      var server := ApiRoutes.HandleApi(ApiRoutes.PostOptions(Shared.OptionsJson(o)), jar, sessions, config, now, writeOk);
      && server.config == config
      && Settle(s, UpdateOptions(server.response.status, ApiRoutes.BodyJson(server.response.body), schemaMessage), freshTag).message
         == Some(Message(ErrorAlert, UpdateFailedText))
  {
  }

  /** The theme toggle keeps the page consistent, and deselecting changes nothing. */
  lemma ThemeChangeConsistent(e: Env, choice: Option<Theme>)
    requires Consistent(e)
    ensures Consistent(Env(HandleThemeChange(e.hook, choice, e.prefersDark), e.prefersDark))
    ensures choice.None? ==> HandleThemeChange(e.hook, choice, e.prefersDark) == e.hook
  {
    if choice.Some? {
      StepConsistent(e, Select(choice.value));
    }
  }
}

=== FILE: shared_schemas.dfy ===
/** The validation rules and constants shared by client and server
    (shared/src/schemas.ts). A schema's `parse` either returns the validated
    value, keeping only the declared keys, or throws; here it returns Some or
    None. Only the constraints the schemas state are modelled. */
module SharedSchemas {
  import opened Optional
  import opened Json
  import Decimal

  datatype User = User(username: string, password: string, fullName: string)

  datatype Options = Options(sessionTimeoutMinutes: int)

  datatype Login = Login(username: string, password: string)

  /** The user part of the `/info` answer. */
  datatype InfoUser = InfoUser(username: string, fullName: string, loginTimestamp: string)

  datatype ServerInfo = ServerInfo(
    startTimestamp: string,
    serverTime: string,
    nodeVersion: string,
    expressVersion: string,
    user: Option<InfoUser>)

  datatype NodeEnv = Development | Production | Test

  /** The validated server environment. The port is kept as the text of the
      `PORT` variable (or its default); `PortNumber` reads it. */
  datatype ServerEnv = ServerEnv(port: string, nodeEnv: NodeEnv)

  // SHARED_CONSTANTS
  const DefaultPort: nat := 3000
  const ApiBase := "/api"
  const CookieName := "session_id"

  const MinTimeoutMinutes := 1
  const MaxTimeoutMinutes := 1440

  predicate ValidTimeout(minutes: int) {
    MinTimeoutMinutes <= minutes <= MaxTimeoutMinutes
  }

  /** The JSON objects a client sends for each record. */
  function UserJson(u: User): Json {
    JObject(map["username" := JString(u.username), "password" := JString(u.password), "fullName" := JString(u.fullName)])
  }

  function OptionsJson(o: Options): Json {
    JObject(map["sessionTimeoutMinutes" := JNumber(o.sessionTimeoutMinutes)])
  }

  function InfoUserJson(u: InfoUser): Json {
    JObject(map["username" := JString(u.username), "fullName" := JString(u.fullName),
                "loginTimestamp" := JString(u.loginTimestamp)])
  }

  function LoginJson(l: Login): Json {
    JObject(map["username" := JString(l.username), "password" := JString(l.password)])
  }

  /** UserSchema: three string fields, all required. */
  function ParseUser(j: Json): (r: Option<User>)
    ensures r.Some? <==>
      StringMember(j, "username").Some? && StringMember(j, "password").Some? && StringMember(j, "fullName").Some?
    ensures r.Some? ==>
      && Member(j, "username") == Some(JString(r.value.username))
      && Member(j, "password") == Some(JString(r.value.password))
      && Member(j, "fullName") == Some(JString(r.value.fullName))
  {
    match (StringMember(j, "username"), StringMember(j, "password"), StringMember(j, "fullName"))
    case (Some(name), Some(password), Some(fullName)) => Some(User(name, password, fullName))
    case _ => None
  }

  /** OptionsSchema: a number between 1 and 1440 inclusive. */
  function ParseOptions(j: Json): (r: Option<Options>)
    ensures r.Some? <==> NumberMember(j, "sessionTimeoutMinutes").Some? && ValidTimeout(NumberMember(j, "sessionTimeoutMinutes").value)
    ensures r.Some? ==> ValidTimeout(r.value.sessionTimeoutMinutes)
    ensures r.Some? ==> Member(j, "sessionTimeoutMinutes") == Some(JNumber(r.value.sessionTimeoutMinutes))
  {
    match NumberMember(j, "sessionTimeoutMinutes")
    case Some(n) => if ValidTimeout(n) then Some(Options(n)) else None
    case None => None
  }

  /** LoginSchema: string username and password. */
  function ParseLogin(j: Json): (r: Option<Login>)
    ensures r.Some? <==> StringMember(j, "username").Some? && StringMember(j, "password").Some?
    ensures r.Some? ==>
      && Member(j, "username") == Some(JString(r.value.username))
      && Member(j, "password") == Some(JString(r.value.password))
  {
    match (StringMember(j, "username"), StringMember(j, "password"))
    case (Some(name), Some(password)) => Some(Login(name, password))
    case _ => None
  }

  /** UserSchema.array(): every element must be a user. */
  function ParseUsers(j: Json): (r: Option<seq<User>>)
    ensures r.Some? ==> j.JArray? && |r.value| == |j.items|
    ensures r.Some? ==> forall i | 0 <= i < |r.value| :: ParseUser(j.items[i]) == Some(r.value[i])
    ensures r.None? ==> !j.JArray? || exists i | 0 <= i < |j.items| :: ParseUser(j.items[i]).None?
  {
    if j.JArray? then ParseUserList(j.items) else None
  }

  function ParseUserList(items: seq<Json>): (r: Option<seq<User>>)
    ensures r.Some? ==> |r.value| == |items|
    ensures r.Some? ==> forall i | 0 <= i < |items| :: ParseUser(items[i]) == Some(r.value[i])
    ensures r.None? ==> exists i | 0 <= i < |items| :: ParseUser(items[i]).None?
    decreases |items|
  {
    if |items| == 0 then Some([])
    else
      match (ParseUser(items[0]), ParseUserList(items[1..]))
      case (Some(u), Some(rest)) =>
        assert forall i | 1 <= i < |items| :: items[i] == items[1..][i - 1];
        Some([u] + rest)
      case (None, _) => None
      case (_, None) =>
        var k :| 0 <= k < |items[1..]| && ParseUser(items[1..][k]).None?;
        assert ParseUser(items[k + 1]).None?;
        None
  }

  /** The user object inside ServerInfoSchema; `isDateTime` stands for
      zod's ISO date-time check, which the model does not spell out. */
  function ParseInfoUser(j: Json, isDateTime: string -> bool): (r: Option<InfoUser>)
    ensures r.Some? <==>
      && StringMember(j, "username").Some? && StringMember(j, "fullName").Some?
      && StringMember(j, "loginTimestamp").Some? && isDateTime(StringMember(j, "loginTimestamp").value)
    ensures r.Some? ==>
      && Member(j, "username") == Some(JString(r.value.username))
      && Member(j, "fullName") == Some(JString(r.value.fullName))
      && Member(j, "loginTimestamp") == Some(JString(r.value.loginTimestamp))
      && isDateTime(r.value.loginTimestamp)
  {
    match (StringMember(j, "username"), StringMember(j, "fullName"), StringMember(j, "loginTimestamp"))
    case (Some(name), Some(fullName), Some(ts)) => if isDateTime(ts) then Some(InfoUser(name, fullName, ts)) else None
    case _ => None
  }

  /** ServerInfoSchema: the `user` key must be present and hold null or a user. */
  function ParseServerInfo(j: Json, isDateTime: string -> bool): (r: Option<ServerInfo>)
    ensures r.Some? <==>
      && StringMember(j, "startTimestamp").Some? && isDateTime(StringMember(j, "startTimestamp").value)
      && StringMember(j, "serverTime").Some? && isDateTime(StringMember(j, "serverTime").value)
      && StringMember(j, "nodeVersion").Some? && StringMember(j, "expressVersion").Some?
      && Member(j, "user").Some?
      && (Member(j, "user").value == JNull || ParseInfoUser(Member(j, "user").value, isDateTime).Some?)
    ensures r.Some? ==>
      && Member(j, "startTimestamp") == Some(JString(r.value.startTimestamp))
      && Member(j, "serverTime") == Some(JString(r.value.serverTime))
      && Member(j, "nodeVersion") == Some(JString(r.value.nodeVersion))
      && Member(j, "expressVersion") == Some(JString(r.value.expressVersion))
    ensures r.Some? ==> (r.value.user.None? <==> Member(j, "user") == Some(JNull))
    ensures r.Some? && r.value.user.Some? ==> ParseInfoUser(Member(j, "user").value, isDateTime) == r.value.user
  {
    match (StringMember(j, "startTimestamp"), StringMember(j, "serverTime"),
           StringMember(j, "nodeVersion"), StringMember(j, "expressVersion"), Member(j, "user"))
    case (Some(start), Some(time), Some(node), Some(express), Some(userJson)) =>
      if !isDateTime(start) || !isDateTime(time) then None
      else if userJson == JNull then Some(ServerInfo(start, time, node, express, None))
      else (
        match ParseInfoUser(userJson, isDateTime)
        case Some(u) => Some(ServerInfo(start, time, node, express, Some(u)))
        case None => None)
    case _ => None
  }

  /** ServerEnvSchema over the process environment: `PORT` defaults to the
      text of DEFAULT_PORT, `NODE_ENV` to development and must otherwise be
      one of the three names. */
  function ParseServerEnv(env: map<string, string>): (r: Option<ServerEnv>)
    ensures r.None? <==> "NODE_ENV" in env && env["NODE_ENV"] !in {"development", "production", "test"}
    ensures r.Some? ==> r.value.port == (if "PORT" in env then env["PORT"] else Decimal.NatToString(DefaultPort))
    ensures r.Some? && "NODE_ENV" !in env ==> r.value.nodeEnv == Development
    ensures r.Some? && "NODE_ENV" in env ==> NodeEnvName(r.value.nodeEnv) == env["NODE_ENV"]
  {
    var port := if "PORT" in env then env["PORT"] else Decimal.NatToString(DefaultPort);
    if "NODE_ENV" !in env then Some(ServerEnv(port, Development))
    else match env["NODE_ENV"]
      case "development" => Some(ServerEnv(port, Development))
      case "production" => Some(ServerEnv(port, Production))
      case "test" => Some(ServerEnv(port, Test))
      case _ => None
  }

  function NodeEnvName(e: NodeEnv): string {
    match e
    case Development => "development"
    case Production => "production"
    case Test => "test"
  }

  /** `Number(port)` for text made of decimal digits only; other text
      (signs, spaces, fractions, NaN) is outside the model. */
  function PortNumber(e: ServerEnv): Option<nat> {
    if Decimal.AllDigits(e.port) then Some(Decimal.DigitsValue(e.port)) else None
  }

  // ---- Properties ----

  /** The timeout bound is inclusive at both ends: 1 and 1440 pass, 0 and 1441 fail. */
  lemma OptionsAcceptExactlyRange(n: int)
    ensures ParseOptions(OptionsJson(Options(n))).Some? <==> 1 <= n <= 1440
    ensures ParseOptions(OptionsJson(Options(0))).None?
    ensures ParseOptions(OptionsJson(Options(1441))).None?
  {
  }

  /** A valid options value parses to itself. */
  lemma OptionsRoundTrip(o: Options)
    requires ValidTimeout(o.sessionTimeoutMinutes)
    ensures ParseOptions(OptionsJson(o)) == Some(o)
  {
  }

  /** Parsing is idempotent: what parses, re-parses unchanged. */
  lemma OptionsParseIdempotent(j: Json)
    requires ParseOptions(j).Some?
    ensures ParseOptions(OptionsJson(ParseOptions(j).value)) == ParseOptions(j)
  {
  }

  /** A user parses to itself, and keys it does not declare are dropped. */
  lemma UserRoundTrip(u: User, extra: map<string, Json>)
    requires "username" !in extra && "password" !in extra && "fullName" !in extra
    ensures ParseUser(UserJson(u)) == Some(u)
    ensures ParseUser(JObject(UserJson(u).fields + extra)) == Some(u)
  {
  }

  /** A user object missing any one of its three fields is rejected. */
  lemma UserMissingFieldRejected(fields: map<string, Json>)
    requires "username" !in fields || "password" !in fields || "fullName" !in fields
    ensures ParseUser(JObject(fields)) == None
  {
  }

  /** A login body parses to itself; a body without both strings is rejected. */
  lemma LoginRoundTrip(l: Login, fields: map<string, Json>)
    requires "username" !in fields || !fields["username"].JString?
    ensures ParseLogin(LoginJson(l)) == Some(l)
    ensures ParseLogin(JObject(fields)) == None
  {
  }

  /** A list of well-formed users parses back to the same list. */
  lemma {:induction false} UsersRoundTrip(users: seq<User>)
    ensures ParseUserList(seq(|users|, i requires 0 <= i < |users| => UserJson(users[i]))) == Some(users)
    decreases |users|
  {
    var items := seq(|users|, i requires 0 <= i < |users| => UserJson(users[i]));
    if |users| > 0 {
      assert items[1..] == seq(|users[1..]|, i requires 0 <= i < |users[1..]| => UserJson(users[1..][i]));
      UsersRoundTrip(users[1..]);
      assert ParseUser(items[0]) == Some(users[0]);
      assert [users[0]] + users[1..] == users;
    }
  }

  /** The `user` of a server info may be null. */
  lemma ServerInfoAllowsNullUser(start: string, time: string, node: string, express: string, isDateTime: string -> bool)
    requires isDateTime(start) && isDateTime(time)
    ensures ParseServerInfo(JObject(map[
      "startTimestamp" := JString(start), "serverTime" := JString(time),
      "nodeVersion" := JString(node), "expressVersion" := JString(express),
      "user" := JNull]), isDateTime) == Some(ServerInfo(start, time, node, express, None))
  {
  }

  /** The `user` of a server info may also be a full user object, which is
      returned as given. */
  lemma ServerInfoAcceptsFullUser(start: string, time: string, node: string, express: string,
                                  u: InfoUser, isDateTime: string -> bool)
    requires isDateTime(start) && isDateTime(time) && isDateTime(u.loginTimestamp)
    ensures ParseServerInfo(JObject(map[
      "startTimestamp" := JString(start), "serverTime" := JString(time),
      "nodeVersion" := JString(node), "expressVersion" := JString(express),
      "user" := InfoUserJson(u)]), isDateTime) == Some(ServerInfo(start, time, node, express, Some(u)))
  {
    assert ParseInfoUser(InfoUserJson(u), isDateTime) == Some(u);
  }

  /** Every environment name is accepted as itself, whatever `PORT` says. */
  lemma ServerEnvNamesRoundTrip(e: NodeEnv, port: string)
    ensures ParseServerEnv(map["PORT" := port, "NODE_ENV" := NodeEnvName(e)]) == Some(ServerEnv(port, e))
  {
  }

  /** An empty environment yields port 3000 in development mode. */
  lemma ServerEnvDefaults()
    ensures ParseServerEnv(map[]) == Some(ServerEnv("3000", Development))
    ensures PortNumber(ServerEnv("3000", Development)) == Some(DefaultPort)
  {
    var text := Decimal.NatToString(DefaultPort);
    assert text == Decimal.NatToString(300) + ['0'];
    assert Decimal.NatToString(300) == Decimal.NatToString(30) + ['0'];
    assert Decimal.NatToString(30) == Decimal.NatToString(3) + ['0'];
    assert text == "3000";
  }
}

=== FILE: theme.dfy ===
/** The theme hook (client/src/hooks/use-theme.ts): the selected theme
    (light, dark or system), restored from local storage under "app-theme",
    and the effect that runs whenever the selection changes. The effect puts
    exactly one of the classes "light"/"dark" on the root element, saves the
    selection, and, for the system theme, listens to the colour-scheme media
    query. The media query's answer is a parameter; the root element's class
    list, local storage and the number of registered "change" listeners make
    up the page. */
module UseTheme {
  import opened Optional

  datatype Theme = Light | Dark | System

  const StorageKey := "app-theme"

  function ThemeName(t: Theme): string {
    match t
    case Light => "light"
    case Dark => "dark"
    case System => "system"
  }

  /** The initial selection: a saved "light" or "dark" as is; any other saved
      text, or none, selects the system theme. */
  function DecodeSaved(saved: Option<string>): (r: Theme)
    ensures r == Light <==> saved == Some("light")
    ensures r == Dark <==> saved == Some("dark")
  {
    if saved == Some("light") then Light
    else if saved == Some("dark") then Dark
    else System
  }

  /** The theme actually shown: the system theme follows the media query. */
  function Effective(t: Theme, prefersDark: bool): (r: Theme)
    ensures r != System
    ensures t != System ==> r == t
    ensures t == System ==> (r == Dark <==> prefersDark)
  {
    if t == System then (if prefersDark then Dark else Light) else t
  }

  type Storage = map<string, string>

  /** The parts of the page the hook touches. */
  datatype Page = Page(classes: set<string>, storage: Storage, listeners: nat)

  /** The hook's selection and the page it has set up. */
  datatype Hook = Hook(theme: Theme, page: Page)

  /** Remove "light" and "dark" from a class list, then add the shown theme's class. */
  function ShowClass(classes: set<string>, shown: Theme): (r: set<string>)
    requires shown != System
    ensures "light" in r <==> shown == Light
    ensures "dark" in r <==> shown == Dark
    ensures forall c | c != "light" && c != "dark" :: c in r <==> c in classes
  {
    classes - {"light", "dark"} + {ThemeName(shown)}
  }

  /** The effect for selection `t`. */
  function RunEffect(p: Page, t: Theme, prefersDark: bool): (r: Page)
    ensures "light" in r.classes <==> Effective(t, prefersDark) == Light
    ensures "dark" in r.classes <==> Effective(t, prefersDark) == Dark
    ensures forall c | c != "light" && c != "dark" :: c in r.classes <==> c in p.classes
    ensures StorageKey in r.storage && r.storage[StorageKey] == ThemeName(t)
    ensures forall k | k in p.storage && k != StorageKey :: k in r.storage && r.storage[k] == p.storage[k]
    ensures r.listeners == p.listeners + (if t == System then 1 else 0)
  {
    Page(ShowClass(p.classes, Effective(t, prefersDark)),
         p.storage[StorageKey := ThemeName(t)],
         if t == System then p.listeners + 1 else p.listeners)
  }

  /** The effect's cleanup: the system theme's effect removes its listener.
      Removing a listener that is not registered does nothing. */
  function Cleanup(p: Page, t: Theme): (r: Page)
    ensures r.classes == p.classes && r.storage == p.storage
    ensures r.listeners <= p.listeners
    ensures t == System && p.listeners > 0 ==> r.listeners + 1 == p.listeners
    ensures t != System ==> r == p
  {
    if t == System && p.listeners > 0 then p.(listeners := p.listeners - 1) else p
  }

  /** The cleanup takes back exactly the listener its effect added. */
  lemma CleanupUndoesEffectListener(p: Page, t: Theme, prefersDark: bool)
    ensures Cleanup(RunEffect(p, t, prefersDark), t).listeners == p.listeners
  {
  }

  /** First render: the selection decoded from storage, then its effect. */
  function Mount(p: Page, prefersDark: bool): (r: Hook)
    ensures r.theme == DecodeSaved(if StorageKey in p.storage then Some(p.storage[StorageKey]) else None)
  {
    var t := DecodeSaved(if StorageKey in p.storage then Some(p.storage[StorageKey]) else None);
    Hook(t, RunEffect(p, t, prefersDark))
  }

  /** `setTheme`: an unchanged selection does not re-run the effect; a changed
      one runs the old effect's cleanup, then the new effect. */
  function SetTheme(h: Hook, t: Theme, prefersDark: bool): (r: Hook)
    ensures r.theme == t
  {
    if t == h.theme then h
    else Hook(t, RunEffect(Cleanup(h.page, h.theme), t, prefersDark))
  }

  /** The operating system switches colour scheme: each registered listener
      re-applies the class; with none registered nothing changes. */
  function SchemeChanged(h: Hook, prefersDark: bool): (r: Hook)
    ensures r.theme == h.theme && r.page.storage == h.page.storage && r.page.listeners == h.page.listeners
  {
    if h.page.listeners > 0 then h.(page := h.page.(classes := ShowClass(h.page.classes, if prefersDark then Dark else Light)))
    else h
  }

  // ---- Properties ----

  /** What the effect saves is what the next first render restores. */
  lemma PersistRoundTrip(t: Theme)
    ensures DecodeSaved(Some(ThemeName(t))) == t
  {
  }

  /** A saved text other than "light" and "dark" falls back to the system theme. */
  lemma UnknownSavedIsSystem(saved: Option<string>)
    requires saved != Some("light") && saved != Some("dark")
    ensures DecodeSaved(saved) == System
  {
  }

  /** After the effect, exactly one of "light"/"dark" is on the root element,
      the saved selection decodes back to the selection, and the system
      theme alone adds a listener. */
  lemma EffectShowsOneTheme(p: Page, t: Theme, prefersDark: bool)
    ensures var r := RunEffect(p, t, prefersDark);
      && ("light" in r.classes) != ("dark" in r.classes)
      && DecodeSaved(Some(r.storage[StorageKey])) == t
      && (r.listeners > p.listeners <==> t == System)
  {
  }

  /** While the system theme is selected, a scheme change leaves the page as
      re-running the effect under the new scheme would. */
  lemma SchemeChangeMatchesEffect(h: Hook, prefersDark: bool)
    requires h.theme == System && h.page.listeners > 0
    ensures SchemeChanged(h, prefersDark).page.classes == RunEffect(h.page, System, prefersDark).classes
  {
  }

  /** A user agent's view: the selection and the colour scheme it reports. */
  datatype Env = Env(hook: Hook, prefersDark: bool)

  datatype Event = Select(theme: Theme) | Scheme(prefersDark: bool)

  function Step(e: Env, ev: Event): Env {
    match ev
    case Select(t) => e.(hook := SetTheme(e.hook, t, e.prefersDark))
    case Scheme(d) => Env(SchemeChanged(e.hook, d), d)
  }

  function Replay(e: Env, events: seq<Event>): Env
    decreases |events|
  {
    if |events| == 0 then e else Replay(Step(e, events[0]), events[1..])
  }

  /** The page agrees with the selection: the shown class is the effective
      theme under the current scheme, the saved value decodes to the
      selection, and exactly the system theme has one listener. */
  predicate Consistent(e: Env) {
    var p := e.hook.page;
    && ("light" in p.classes <==> Effective(e.hook.theme, e.prefersDark) == Light)
    && ("dark" in p.classes <==> Effective(e.hook.theme, e.prefersDark) == Dark)
    && StorageKey in p.storage && DecodeSaved(Some(p.storage[StorageKey])) == e.hook.theme
    && p.listeners == (if e.hook.theme == System then 1 else 0)
  }

  /** A first render on a page with no listeners is consistent. */
  lemma MountConsistent(p: Page, prefersDark: bool)
    requires p.listeners == 0
    ensures Consistent(Env(Mount(p, prefersDark), prefersDark))
  {
  }

  /** One selection or scheme change keeps the page consistent. */
  lemma StepConsistent(e: Env, ev: Event)
    requires Consistent(e)
    ensures Consistent(Step(e, ev))
  {
  }

  /** However the user selects themes and the system switches schemes, the
      page keeps exactly one theme class, the right one, the saved
      selection, and never more than one listener. */
  lemma {:induction false} ReplayConsistent(e: Env, events: seq<Event>)
    requires Consistent(e)
    ensures Consistent(Replay(e, events))
    ensures Replay(e, events).hook.page.listeners <= 1
    decreases |events|
  {
    if |events| > 0 {
      StepConsistent(e, events[0]);
      ReplayConsistent(Step(e, events[0]), events[1..]);
    }
  }
}
